=== FILE: README.md ===
# Popolion extraction core in Dafny

Popolion is a command-line tool that extracts IPF archives. This project
models the sequential logic of its Extract subcommand and proves properties
about it:

- **`CloneableSeekableReader`** (module `CloneableReader`). One file is shared
  behind a mutex and read through many clones. Each clone has its own cursor
  and its own cached file length. The shared file is a byte sequence plus its
  operating-system position, and each clone is a `Cursor(pos, fileLength)`.
  The lock-protected body of `read` (seek the shared file to this clone's
  position, then read) is one atomic transition of a `Source`, which holds the
  shared file and every clone's cursor. A `seek` changes only its own clone's
  cursor. An interleaving is a sequence of `read`, `seek` and `clone` calls by
  any of the clones.
- **The `--exclude` filter** (module `Exclusion`). This covers `match_glob` and
  the loop that stops at the first rule that fires. Glob compilation and
  matching belong to the `globset` crate, so they enter as the two function
  parameters of `Glob`.
- **Path sanitising and target composition** (module `Paths`). Paths are
  sequences of `Root | Cur | Parent | Normal(name)` components. `PathBuf::push`
  replaces the base when the pushed path has a root and appends otherwise.
  Pushing the empty path, which is what a name that `sanitize_filename`
  empties becomes, leaves a trailing separator on a non-empty path. The model
  writes that separator as a final `.`, which the lookup and `File::create`
  treat the same way.
  `sanitize_filename::sanitize` is the function parameter `clean`. `Resolve`
  gives the lexical key of a path: `.` is dropped and `..` removes the name
  before it.
- **The disk as `std::fs` reaches it on Unix** (module `Disk`). Files and
  directories are keyed by resolved paths. `Walk` is the lookup behind
  `Path::exists`: every component but the last must lead to a directory. So
  `b/../a` reaches `a` only while `b` is an existing directory, and the lookup
  fails otherwise. The empty path does not exist. `CreateDirAll` is `fs::create_dir_all`, which makes each
  prefix of the path it is given in turn. `CreateFile` is `File::create`.
- **The per-entry closure and the loop over entry indices** (module
  `Extraction`). Each entry is excluded, skipped because its target path
  exists, written, or fails where the program's `unwrap` panics. The progress
  counter goes up once per index. The parallel iterator becomes a loop in
  index order. The existence check, the parent directory and the file all
  use the target path as built, as the program does.

Module `Base` holds `Option`, the `u64`/`i64` ranges and the byte type.

## Behaviour as written

Some behaviour of the code is easy to misread:

- A pattern `!w` excludes every path that `w` does NOT match. It does not
  force-include, and it never rescues a path that a plain pattern matches. So
  with the rules `*.txt` and `!dir/*`, an entry `dir/c.txt` that `*.txt`
  matches is excluded.
- `sanitize` copies `..`, `.` and the root unchanged and only passes `Normal`
  names through `sanitize_filename`. A `..` in an entry path survives, and an
  entry path with a root replaces the destination directory completely.
- `seek(End(d))` with `d > 0` is rejected with `InvalidInput` for any file
  shorter than `2^64 - d`. It does not seek past the end of the file.
- The exclusion loop compiles patterns only until the first rule fires. An
  invalid pattern after that rule never panics.
- An entry whose last name `sanitize_filename` empties, such as `d/?`, gets
  the target `d/`, or the empty path for `?` alone. `File::create` fails on
  both, so the program panics, with or without `--never-overwrite`
  (`Extraction.NamelessTargetIsNeverWritten`).
- `--never-overwrite` does not protect a file that a target reaches through
  `..` after a missing directory. Take an entry `b/../a`, an existing file
  `a` and no `b`. The lookup of `b/../a` fails, so `path.exists()` is false.
  Then `create_dir_all("b/..")` creates `b`, and `File::create` truncates
  `a` and writes the entry over it. `Extraction.ParentAliasOverwrites` proves
  this. With `b` an existing directory the entry is skipped, as
  `Extraction.ParentAliasIsSpared` proves. The same happens to `../x` under
  a destination directory that does not exist yet, when `x` exists in the
  working directory.

## Model

| member | source | states |
|---|---|---|
| CloneableReader.New | src/main.rs:226-232 | a new reader starts at position 0 with no cached length, over the given shared file |
| CloneableReader.FreshReaderReadsFromStart | src/main.rs:226-232 | a new reader's first successful read returns the file's leading bytes, wherever the shared file's OS position was |
| CloneableReader.Clone | src/main.rs:215-223 | a clone shares the file and copies the cloned reader's position and cached length; no existing reader changes and validity is kept |
| CloneableReader.CloneReadsLikeOrigin | src/main.rs:215-223 | a clone reads exactly the bytes its origin would read at that moment, and the clone's read leaves the origin's cursor where it was |
| CloneableReader.AscertainFileLength | src/main.rs:234-243 | the shared file is asked for its length iff nothing is cached; afterwards the length is cached, and a filled cache answers instead of the file |
| CloneableReader.Seek | src/main.rs:261-286 | Start sets the cursor to the offset and Current moves it by the delta; End lands at (length + delta) mod 2^64 and fails with InvalidInput, cursor unchanged, iff the wrapped negation of the delta exceeds the length; only End with an empty cache queries the file; a filled cache is never cleared |
| CloneableReader.EndSeekPastEndRejected | src/main.rs:265-272 | an end-relative seek with a positive delta is rejected for any length below 2^64 - delta, and the position stays put |
| CloneableReader.EndSeekZeroLandsAtLength | src/main.rs:273-274 | `seek(End(0))` succeeds at exactly the known length |
| CloneableReader.SeekAt | src/main.rs:261-286 | a seek on one clone changes that clone's cursor as `Seek` does, and leaves the shared file and every sibling untouched |
| CloneableReader.Read | src/main.rs:246-258 | on success this reader receives the bytes at its own position, advances by exactly their count, and leaves the OS position just past them; on a seek or read error no cursor moves; sibling readers and the file contents never change |
| CloneableReader.SeekThenRead | src/main.rs:246-286 | after `seek(Start(p))`, a successful read returns the bytes from `p` on, up to the buffer length, whatever the OS position was |
| CloneableReader.ReadsAreContiguous | src/main.rs:246-286 | over any interleaving in which a clone does not seek itself, while its siblings read and seek freely, it receives exactly the contiguous bytes from its starting position to its final one |
| CloneableReader.ReadsIndependentOfSiblings | src/main.rs:246-286 | a clone's final cursor and received bytes depend only on its own reads and seeks, not on siblings' calls or on the shared OS position |
| CloneableReader.InterleavingIsInvisible | src/main.rs:208-286 | interleaved reads and seeks give each clone the same cursor and bytes as making its own calls alone |
| CloneableReader.LengthQueriedAtMostOnce | src/main.rs:234-243 | along any panic-free sequence of seeks, a reader queries the file length at most once: exactly once iff it started uncached and some seek is end-relative; a cached length is kept |
| Paths.FileStem | src/main.rs:110-116 | the stem is a non-empty prefix of the file name: the whole name when no dot follows the first character, and otherwise the name cut at its last dot, so the extension is dropped |
| Paths.StemDropsExtension | src/main.rs:110-116 | for a non-empty base and a dot-free extension, the stem of `base.ext` is `base` |
| Paths.ArchiveStem | src/main.rs:110-116 | the archive path has a stem iff it has a file name, and the stem is that name's `FileStem` |
| Paths.Push | src/main.rs:104-119 | a path with a root replaces the base; any other path is joined after the base, which stays in front; the result ends in a name iff the pushed path does |
| Paths.Sanitize | src/main.rs:167-178 | the sanitised path has a root iff the entry path has one anywhere, it has no more components than the entry path, and it ends in a name iff the entry does and `clean` leaves a name (not empty, `.` or `..`) there |
| Paths.SanitizeIsConcat | src/main.rs:167-178 | on a path whose root can only come first, sanitising is the concatenation of the sanitised components, and the result has a root iff the input does |
| Paths.SanitizeIsComponentwise | src/main.rs:167-178 | when `clean` yields proper names, the result has the same number of components in the same order; `Normal(s)` becomes `Normal(clean(s))` and every other component, `..` and root included, is copied unchanged |
| Paths.ParentSurvivesSanitize | src/main.rs:169-175 | whatever `clean` does, a `..` in the entry path is still in the sanitised path |
| Paths.SanitizeIdempotent | src/main.rs:167-178 | when `clean` is idempotent and yields proper names, sanitising twice equals sanitising once |
| Paths.TargetPath | src/main.rs:104-119 | an entry with a root anywhere targets its sanitised path alone, whatever the destination and `sub` are; the target is absolute iff the entry has a root or the destination is absolute; it ends in a name iff the sanitised entry does |
| Paths.TargetOfRelativeEntry | src/main.rs:104-119 | for an entry without a root, the target is the destination, then the archive stem if `sub`, then the sanitised entry path; a sanitised path that is empty leaves a trailing separator after a non-empty base; the target starts with the destination |
| Paths.Resolve | src/main.rs:121-141 | the lexical key of a path is in resolved form (no `.`, a root only in front, `..` only leading) and is absolute iff the path has a root |
| Paths.ResolvedIsFixed | src/main.rs:121-141 | a path already in resolved form is its own key |
| Paths.ResolveIdempotent | src/main.rs:121-141 | resolving twice is resolving once |
| Exclusion.ParseRule | src/main.rs:181 | a pattern is negated iff it starts with `!`, and exactly one `!` is stripped |
| Exclusion.MatchGlob | src/main.rs:180-198 | an error iff the pattern, minus one leading `!`, does not compile; otherwise a plain pattern fires iff the path matches it, and `!w` fires iff the path does not match `w` |
| Exclusion.ExclusionStatus | src/main.rs:92-102 | the loop panics iff it reaches an uncompilable pattern before any rule fires, naming a listed pattern that does not compile; otherwise it leaves `status` true iff no rule fires; with no rules every entry is kept |
| Exclusion.MoreRulesExcludeMore | src/main.rs:95-102 | adding rules can only turn kept entries into excluded ones |
| Exclusion.RuleOrderIrrelevant | src/main.rs:95-102 | two rule lists with the same members exclude the same paths, whatever their order or repeats |
| Exclusion.NoRulesExcludeNothing | src/main.rs:95 | without `--exclude`, or with an empty list, no path is excluded |
| Exclusion.NegatedRuleExcludesTheRest | src/main.rs:181-187 | a lone `!w` rule excludes exactly the paths that `w` does not match |
| Exclusion.NegationDoesNotRescue | src/main.rs:188-194 | a path matched by any plain rule is excluded, whatever `!` rules come before or after it |
| Disk.Walk | src/main.rs:121 | a lookup that succeeds lands on the path's lexical key |
| Disk.WalkSucceedsIff | src/main.rs:121 | a lookup succeeds iff every proper prefix of the path leads to a directory |
| Disk.WalkGrows | src/main.rs:130-141 | creating directories never makes a lookup that succeeded fail or land elsewhere |
| Disk.CurIsAlias | src/main.rs:121-143 | `p/.`, and so `p/` with its trailing separator, is looked up as `p` when `p` leads to a directory, and the lookup fails otherwise; it exists iff `p` is a directory, and `File::create` on it fails |
| Disk.ParentCancelsName | src/main.rs:121 | `p/name/..` is looked up as `p` exactly when `p/name` leads to a directory, and the lookup fails otherwise |
| Disk.DownwardLookup | src/main.rs:121 | on a directory tree, `path.exists()` finds an existing file through any path to it that has no `..` and ends in a name |
| Disk.MakeDir | src/main.rs:132 | one `mkdir` succeeds iff the path up to its last component leads to a directory and a last name is not a file; it adds at most the path's own key and no file; on a directory tree the path is a directory afterwards and the tree stays one |
| Disk.CreateDirAll | src/main.rs:130-139 | files stay as they were, and every new directory is the key of a prefix of the path; on a directory tree it succeeds whenever no prefix of the path leads to a file, and afterwards the path leads to a directory and the tree stays one |
| Disk.CreateFile | src/main.rs:141-143 | succeeds iff the last component is a name, the path before it leads to a directory, and the key is not a directory; then exactly that key's contents are set, and the path exists afterwards |
| Extraction.MakeParent | src/main.rs:130-139 | only directories along the parent path are added, a directory tree stays one, and a parent that already leads to a directory is left alone; on a directory tree with no file in the way, a missing parent is created and leads to a directory afterwards |
| Extraction.Step | src/main.rs:92-147 | an entry is skipped as excluded iff excluded, and skipped as existing iff kept under `never_overwrite` with `path.exists()` true; when written, the target ends in a name, the file it leads to holds the bytes, no other file changes and the path exists; otherwise nothing changes; nothing disappears and a directory tree stays one; it fails only where the target cannot be written in place |
| Extraction.ExtractEntry | src/main.rs:88-150 | the closure body as written (the `status` flag set by the exclusion loop and cleared by the existence check, then `create_dir_all` of a missing parent and `File::create`) has exactly the reference outcome and filesystem of `Step` |
| Extraction.StepWritesKeptEntry | src/main.rs:121-146 | on a directory tree, a kept entry that gets past the existence check is written when its target path has no `..`, ends in a name that is not a directory, and has no file in the way of its parent; a missing parent is created first |
| Extraction.NamelessTargetIsNeverWritten | src/main.rs:104-143 | an entry whose last name `clean` turns into nothing, `.` or `..` is never written; a kept one fails without `--never-overwrite`, and fails even with it when its target is the empty path |
| Extraction.DotAliasIsSpared | src/main.rs:104-124 | with `never_overwrite` and an existing file `a`, the entry `./a` is skipped |
| Extraction.ParentAliasIsSpared | src/main.rs:104-124 | with `never_overwrite`, an existing file `a` and an existing directory `b`, the entry `b/../a` is skipped, although its `..` survives sanitising |
| Extraction.DanglingParentOverwrites | src/main.rs:121-143 | on a directory tree holding just the file `a`, a kept target `b/../a` under `never_overwrite` passes the existence check, gets `b` created, and overwrites `a` with the entry's bytes |
| Extraction.ParentAliasOverwrites | src/main.rs:104-143 | the same for the archive entry `b/../a` extracted into the working directory |
| Extraction.Run | src/main.rs:87-151 | the progress counter and the outcome list both have exactly one element per index; the outcome is "excluded" iff the entry is excluded; every other outcome names that entry's target |
| Extraction.ExtractArchive | src/main.rs:87-151 | the loop over indices ends with the counter equal to the entry count and the same filesystem and outcomes as the fold `Run` |
| Extraction.RunDecidesEachEntry | src/main.rs:121-130 | each entry's outcome is decided against the filesystem that the entries before it left |
| Extraction.RunKeepsTargets | src/main.rs:130-146 | nothing that existed disappears, a directory tree stays one, and after the run every entry that was written or skipped as existing has its target path existing |
| Extraction.OverwriteWritesEveryKeptEntry | src/main.rs:121-127 | without `never_overwrite`, no entry is skipped as existing: an entry is written or fails iff it is not excluded |
| Extraction.StepSparesExisting | src/main.rs:121-143 | with `never_overwrite` on a directory tree, an entry whose target path has no `..` is written only if nothing was at its file before |
| Extraction.NeverOverwriteSparesExisting | src/main.rs:121-143 | with `never_overwrite` on a directory tree and target paths without `..`, no file that existed before the run is written |
| Extraction.StepChangesOnlyTarget | src/main.rs:141-146 | one entry changes at most the file its target leads to, and only by writing it |
| Extraction.RunChangesOnlyTargets | src/main.rs:141-146 | any file created or changed by a run is the one that the target of an entry recorded as written leads to |
| Extraction.NothingToOverwrite | src/main.rs:121-127 | with `never_overwrite` and every kept entry's target path existing, a run writes nothing and leaves the filesystem unchanged |
| Extraction.RerunWritesNothing | src/main.rs:121-127 | running the extraction again with `never_overwrite` on the output of a first run in which nothing panicked writes nothing and leaves the filesystem unchanged |

## Left out

- Command-line parsing and the List subcommand (src/main.rs:14-53, 155-161). They are argument plumbing and printing only.
- Progress-bar rendering (src/main.rs:76-85, 152). It is display only, so just the counter is kept.
- Opening each archive and parsing it with `libtos::IpfArchive` (src/main.rs:66-73, 89). Entries are given as a path plus the bytes they decompress to. The bytes that `io::copy` pulls through a cloned reader are not connected to `CloneableReader`.
- `rayon` parallelism (src/main.rs:87). The loop runs in index order. The existence check (src/main.rs:121) and `File::create` (src/main.rs:141) are separate steps, and workers interleave between them. So two entries whose targets lead to the same file can both find it absent under `never_overwrite`, and both are then written. The file's final contents depend on that race. When the two targets have the same key, the model writes the lower index and skips the other one.
- The working directory's place in the file system. Keys relative to it and absolute keys are unrelated in the model, so `a`, `/w/a` and `../w/a` are three files even when the working directory is `/w`. Under `--never-overwrite`, a run in index order over the entries `a` and `/w/a` skips the second one in the program, but the model writes both.
- `Arc`/`Mutex` (src/main.rs:209, 248). The locked body of `read` is one atomic step. Lock poisoning (`expect`) is not modelled.
- Glob compilation and matching (`globset`) and `sanitize_filename::sanitize`. They are function parameters.
- Filesystem failures other than the lookup rules. `create_dir_all` and `File::create` fail as on Unix when a file is in the way of a directory or a directory is at the target. The model then records `Failed` and goes on with the next index, where the program's `unwrap` panics. Directories created before a failing `File::create` are not kept. `io::copy` always succeeds. Permissions, full disks and other I/O errors are not modelled.
- `HasLength` for `File` and `BufReader` (src/main.rs:289-299). The file length is the length of the byte sequence, and the file does not change while it is read.
- CloneableReader.Read: a successful OS read transfers as many bytes as fit, so short reads of a regular file are not modelled. OS seek and read errors are a parameter (`Fault`), not derived from the position.
- CloneableReader.Seek: a relative seek that leaves the `u64` range is excluded by the precondition `CanSeek`. Negating `i64::MIN` is modelled with the wrapped value, which a debug build would reject with a panic.
- Paths.Sanitize: Windows path prefixes are not modelled. A `PathBuf` does not re-normalise interior `.` components. A cleaned name that contains a separator is read as a single component. A trailing separator is kept as a final `.` component. An empty name in the middle of the path leaves an interior `.` where the program's path has nothing. Both are looked up the same way as on disk.
- Extraction.ExtractEntry, Extraction.ExtractArchive: require every entry to be `Configured`, meaning no exclusion rule panics on it and `--sub` has an archive stem. The program panics in those cases and the run ends. `ExclusionStatus` models that panic as an outcome.
- Extraction.Step: symbolic links are not modelled. A lookup through a link reaches a different key in the model than on disk.
- Extraction.NeverOverwriteSparesExisting, Extraction.StepSparesExisting: hold only for target paths without `..`, on a disk that is a directory tree. With a `..` the program can overwrite an existing file, as `ParentAliasOverwrites` shows.
- Extraction.RerunWritesNothing: holds for a first run in which nothing failed. In the program a failure panics and ends the run.
- Paths.ParentOf: `Path::parent` in the program also drops a trailing `.` from what is left, so the parent of `out/./a` is `out`, while the model keeps `out/.`. Both lookups succeed exactly when `out` is a directory. When `out` is a file, the program skips `create_dir_all` and the model's `create_dir_all` fails, and in both `File::create` is not reached or fails.

=== FILE: base.dfy ===
/**
  Small shared vocabulary: an optional value, machine-integer ranges and the
  byte type. Rust's `u64`/`i64` are modelled as ranges over Dafny's unbounded
  integers; every wrap-around the program relies on is written out where it
  happens.
 */
module Base {

  /** Rust's `Option<T>`. */
  datatype Option<+T> = None | Some(value: T)

  /** A byte of the archive file. */
  newtype byte = x: int | 0 <= x < 256

  /** 2^64, the number of `u64` values. */
  const U64_LIMIT: int := 0x1_0000_0000_0000_0000

  /** The bounds of `i64`. */
  const I64_MIN: int := -0x8000_0000_0000_0000
  const I64_MAX: int := 0x7fff_ffff_ffff_ffff

  predicate IsU64(x: int) {
    0 <= x < U64_LIMIT
  }

  predicate IsI64(x: int) {
    I64_MIN <= x <= I64_MAX
  }

  /** Two's-complement reinterpretation `x as u64` of an integer in `i64` range
      (or of `2^63`, the wrapped negation of `i64::MIN`). */
  function AsU64(x: int): (r: int)
    requires I64_MIN <= x <= I64_MAX + 1
    ensures IsU64(r)
    ensures 0 <= x ==> r == x
    ensures x < 0 ==> r == x + U64_LIMIT
  {
    x % U64_LIMIT
  }

  function Min(a: int, b: int): int {
    if a <= b then a else b
  }
}

=== FILE: disk.dfy ===
/**
  The disk as the extraction loop reaches it through `std::fs` on a Unix
  system: files and directories, the lookup behind `Path::exists`,
  `fs::create_dir_all` and `File::create`.

  A lookup walks a path one component at a time from the working directory,
  and every component but the last must lead to a directory: `b/..` reaches
  the working directory only while `b` is an existing directory, and the
  lookup fails (`ENOENT`, `ENOTDIR`) otherwise. A lookup that succeeds
  reaches the lexical key `Resolve(p)`, so the disk is keyed by resolved
  paths. Symbolic links are not modelled.
 */
module Disk {
  import opened Base
  import opened Paths

  /** Files with their contents, and directories, keyed by resolved paths
      relative to the working directory. */
  datatype Fs = Fs(files: map<Path, seq<byte>>, dirs: set<Path>)

  /** Directories that are there whatever the disk holds: the working
      directory `[]`, its ancestors `..`, `../..`, …, and the root. */
  predicate Implicit(k: Path) {
    k == [Root] || forall i :: 0 <= i < |k| ==> k[i] == Parent
  }

  predicate IsDir(fs: Fs, k: Path) {
    k in fs.dirs || Implicit(k)
  }

  /** Something, file or directory, is at key `k`. */
  predicate Exists(fs: Fs, k: Path) {
    k in fs.files || IsDir(fs, k)
  }

  /** `k` sits in a directory that exists. */
  predicate InDir(fs: Fs, k: Path) {
    |k| > 0 && IsDir(fs, k[..|k| - 1])
  }

  /** The disk is a directory tree: every key is a resolved path and sits in
      an existing directory. */
  predicate Tree(fs: Fs) {
    && (forall k :: k in fs.dirs ==> Resolved(k) && InDir(fs, k))
    && (forall k :: k in fs.files ==> Resolved(k) && InDir(fs, k))
  }

  /** The lookup of `p`: the key it reaches, or `None` when some component
      but the last does not lead to a directory. */
  function Walk(fs: Fs, p: Path): (r: Option<Path>)
    ensures r.Some? ==> r.value == Resolve(p)
    decreases |p|
  {
    if |p| == 0 then Some([])
    else
      match Walk(fs, p[..|p| - 1])
      case None => None
      case Some(d) => if IsDir(fs, d) then Some(Enter(d, p[|p| - 1])) else None
  }

  /** `Path::exists`: the lookup succeeds and reaches something. The empty
      path names nothing (`stat("")` fails with `ENOENT`). */
  predicate PathExists(fs: Fs, p: Path) {
    |p| > 0 && Walk(fs, p).Some? && Exists(fs, Walk(fs, p).value)
  }

  /** The lookup succeeds and reaches a directory. The empty path stands for
      the working directory here, as the directory part of a one-component
      path does for `mkdir` and `open`. */
  predicate DirExists(fs: Fs, p: Path) {
    Walk(fs, p).Some? && IsDir(fs, Walk(fs, p).value)
  }

  /** The lookup of `p` followed by one more component. */
  lemma WalkStep(fs: Fs, p: Path, c: Component)
    ensures Walk(fs, p + [c]) == if DirExists(fs, p) then Some(Enter(Resolve(p), c)) else None
  {
    assert (p + [c])[..|p|] == p;
  }

  /** A lookup succeeds exactly when every proper prefix of the path leads
      to a directory. */
  lemma {:induction false} WalkSucceedsIff(fs: Fs, p: Path)
    ensures Walk(fs, p).Some? <==> forall k :: 0 <= k < |p| ==> IsDir(fs, Resolve(p[..k]))
    decreases |p|
  {
    if |p| > 0 {
      var n := |p| - 1;
      var q := p[..n];
      WalkSucceedsIff(fs, q);
      assert p[..n] == q;
      assert forall k :: 0 <= k < n ==> q[..k] == p[..k];
      if Walk(fs, q).None? {
        var k :| 0 <= k < n && !IsDir(fs, Resolve(q[..k]));
        assert !IsDir(fs, Resolve(p[..k]));
      }
    }
  }

  /** Creating directories never makes a lookup that succeeded fail or
      land elsewhere. */
  lemma {:induction false} WalkGrows(fs: Fs, fs': Fs, p: Path)
    requires fs.dirs <= fs'.dirs
    ensures Walk(fs, p).Some? ==> Walk(fs', p) == Walk(fs, p)
    decreases |p|
  {
    if |p| > 0 {
      WalkGrows(fs, fs', p[..|p| - 1]);
    }
  }

  lemma PathExistsGrows(fs: Fs, fs': Fs, p: Path)
    requires fs.dirs <= fs'.dirs && fs.files.Keys <= fs'.files.Keys
    ensures PathExists(fs, p) ==> PathExists(fs', p)
  {
    WalkGrows(fs, fs', p);
  }

  /** A `..` run that `Resolve` keeps is the whole key. */
  lemma {:induction false} ParentRun(d: Path, j: nat)
    requires Resolved(d) && j < |d| && d[j] == Parent
    ensures forall i :: 0 <= i <= j ==> d[i] == Parent
    decreases j
  {
    if j > 0 {
      ParentRun(d, j - 1);
    }
  }

  /** In a directory tree, leaving a directory with `..` reaches a
      directory. */
  lemma ParentOfDirIsDir(fs: Fs, d: Path)
    requires Tree(fs) && Resolved(d) && IsDir(fs, d)
    ensures IsDir(fs, Enter(d, Parent))
  {
    if |d| > 0 && d[|d| - 1].Normal? {
      assert d in fs.dirs && InDir(fs, d);
    } else if d != [Root] && |d| > 0 {
      assert d[|d| - 1] != Root;
      ParentRun(d, |d| - 1);
    }
  }

  /** `mkdir` as `create_dir_all` issues it: the path up to the last
      component must lead to a directory; a last name that is free becomes a
      directory, one that is a directory already is accepted (the `is_dir`
      retry) and one that is a file fails. A last `.`, `..` or root names a
      directory that is there already. */
  function MakeDir(fs: Fs, p: Path): (r: Option<Fs>)
    requires |p| > 0
    ensures r.Some? <==> DirExists(fs, p[..|p| - 1]) && (p[|p| - 1].Normal? ==> Resolve(p) !in fs.files || IsDir(fs, Resolve(p)))
    ensures r.Some? ==> r.value.files == fs.files && fs.dirs <= r.value.dirs && r.value.dirs <= fs.dirs + {Resolve(p)}
    ensures r.Some? ==> Walk(r.value, p).Some?
    ensures r.Some? && Tree(fs) ==> Tree(r.value) && IsDir(r.value, Resolve(p))
  {
    var q := p[..|p| - 1];
    var c := p[|p| - 1];
    match Walk(fs, q)
    case None => None
    case Some(d) =>
      if !IsDir(fs, d) then None
      else
        var k := Enter(d, c);
        if !c.Normal? || IsDir(fs, k) then
          assert Tree(fs) && c == Parent ==> IsDir(fs, k) by {
            if Tree(fs) && c == Parent {
              ParentOfDirIsDir(fs, d);
            }
          }
          Some(fs)
        else if k in fs.files then None
        else
          var fs' := fs.(dirs := fs.dirs + {k});
          WalkGrows(fs, fs', q);
          assert Tree(fs) ==> Tree(fs') by {
            EnterKeepsResolved(d, c);
            assert k[..|k| - 1] == d;
          }
          Some(fs')
  }

  /** `fs::create_dir_all`: `mkdir` of every prefix of `p`, shortest first,
      stopping at the first failure. */
  function CreateDirAll(fs: Fs, p: Path): (r: Option<Fs>)
    // only directories are added, and only those along `p`
    ensures r.Some? ==> r.value.files == fs.files && fs.dirs <= r.value.dirs
    ensures r.Some? ==> forall k :: k in r.value.dirs && k !in fs.dirs ==> exists j :: 1 <= j <= |p| && k == Resolve(p[..j])
    // afterwards `p` is a directory
    ensures r.Some? && Tree(fs) ==> Tree(r.value) && DirExists(r.value, p)
    // on a directory tree it succeeds when no file is in the way of a prefix
    ensures Tree(fs) && (forall j :: 1 <= j <= |p| ==> Resolve(p[..j]) !in fs.files) ==> r.Some?
    decreases |p|
  {
    if |p| == 0 then Some(fs)
    else
      var q := p[..|p| - 1];
      assert forall j :: 1 <= j <= |q| ==> q[..j] == p[..j];
      match CreateDirAll(fs, q)
      case None => None
      case Some(f) =>
        var r := MakeDir(f, p);
        assert p[..|p|] == p;
        r
  }

  /** `File::create`: the path up to the last component must lead to a
      directory and the last component must be a name that is not a
      directory; the file there is created or truncated and then filled. */
  function CreateFile(fs: Fs, p: Path, data: seq<byte>): (r: Option<Fs>)
    ensures r.Some? <==>
      |p| > 0 && p[|p| - 1].Normal? && DirExists(fs, p[..|p| - 1]) && !IsDir(fs, Resolve(p))
    ensures r.Some? ==> r.value == fs.(files := fs.files[Resolve(p) := data])
    ensures r.Some? ==> PathExists(r.value, p)
    ensures r.Some? && Tree(fs) ==> Tree(r.value)
  {
    if |p| == 0 || !p[|p| - 1].Normal? then None
    else
      var q := p[..|p| - 1];
      match Walk(fs, q)
      case None => None
      case Some(d) =>
        var k := Enter(d, p[|p| - 1]);
        if !IsDir(fs, d) || IsDir(fs, k) then None
        else
          var fs' := fs.(files := fs.files[k := data]);
          WalkGrows(fs, fs', q);
          assert Tree(fs) ==> Tree(fs') by {
            EnterKeepsResolved(d, p[|p| - 1]);
            assert k[..|k| - 1] == d;
          }
          Some(fs')
  }

  /** `p/.` is looked up as `p` when `p` leads to a directory, and fails
      otherwise; so `p/.`, like `p/`, exists exactly when `p` is a
      directory, and no file can be created there. */
  lemma CurIsAlias(fs: Fs, a: Path, data: seq<byte>)
    ensures Walk(fs, a + [Cur]) == if DirExists(fs, a) then Walk(fs, a) else None
    ensures PathExists(fs, a + [Cur]) <==> DirExists(fs, a)
    ensures CreateFile(fs, a + [Cur], data).None?
  {
    assert (a + [Cur])[..|a|] == a;
  }

  /** `p/name/..` is looked up as `p` exactly when `p/name` leads to a
      directory; otherwise the lookup fails, even where `p` exists. */
  lemma ParentCancelsName(fs: Fs, a: Path, name: string)
    ensures Walk(fs, a + [Normal(name), Parent]) ==
      if DirExists(fs, a + [Normal(name)]) then Walk(fs, a) else None
  {
    var p := a + [Normal(name), Parent];
    assert p[..|p| - 1] == a + [Normal(name)];
    assert (a + [Normal(name)])[..|a|] == a;
    if Walk(fs, a + [Normal(name)]).Some? {
      var x := Resolve(a);
      assert Walk(fs, a + [Normal(name)]).value == x + [Normal(name)];
      assert (x + [Normal(name)])[..|x|] == x;
    }
  }

  /** A path without `..` and with a root only in front: each prefix of it
      resolves to a prefix of what the whole path resolves to. */
  predicate Downward(p: Path) {
    forall i :: 0 <= i < |p| ==> p[i] != Parent && (p[i] == Root ==> i == 0)
  }

  lemma {:induction false} DownwardPrefix(p: Path, k: nat)
    requires Downward(p) && k <= |p|
    ensures |Resolve(p[..k])| <= |Resolve(p)| && Resolve(p)[..|Resolve(p[..k])|] == Resolve(p[..k])
    decreases |p|
  {
    if k < |p| {
      var n := |p| - 1;
      var q := p[..n];
      assert Downward(q) by {
        assert forall i :: 0 <= i < n ==> q[i] == p[i];
      }
      assert q[..k] == p[..k];
      DownwardPrefix(q, k);
      var rq := Resolve(q);
      assert p[n] == Root ==> n == 0;
      assert |rq| <= |Resolve(p)| && Resolve(p)[..|rq|] == rq;
    } else {
      assert p[..k] == p;
    }
  }

  /** In a directory tree, everything above an existing key is a
      directory. */
  lemma {:induction false} AboveIsDir(fs: Fs, key: Path, j: nat)
    requires Tree(fs) && (key in fs.files || key in fs.dirs) && j < |key|
    ensures IsDir(fs, key[..j])
    decreases |key|
  {
    var up := key[..|key| - 1];
    assert InDir(fs, key);
    if j < |up| {
      assert up[..j] == key[..j];
      if up in fs.dirs {
        AboveIsDir(fs, up, j);
      } else {
        assert forall i :: 0 <= i < j ==> key[..j][i] == up[i];
      }
    }
  }

  /** In a directory tree, a path without `..` that ends in a name reaches
      the file its key holds: the lookup cannot fail on the way. */
  lemma DownwardLookup(fs: Fs, p: Path)
    requires Tree(fs) && Downward(p) && |p| > 0 && p[|p| - 1].Normal?
    requires Resolve(p) in fs.files
    ensures PathExists(fs, p)
  {
    var key := Resolve(p);
    var n := |p| - 1;
    assert p[..n][..n] == p[..n];
    assert key == Resolve(p[..n]) + [p[n]];
    forall k | 0 <= k < |p|
      ensures IsDir(fs, Resolve(p[..k]))
    {
      DownwardPrefix(p, k);
      var rk := Resolve(p[..k]);
      assert |rk| < |key| by {
        assert Downward(p[..n]) by {
          assert forall i :: 0 <= i < n ==> p[..n][i] == p[i];
        }
        assert p[..n][..k] == p[..k];
        DownwardPrefix(p[..n], k);
      }
      AboveIsDir(fs, key, |rk|);
    }
    WalkSucceedsIff(fs, p);
  }
}

=== FILE: exclusion.dfy ===
/**
  The `--exclude` decision: `match_glob` and the loop over the rules in the
  extraction closure. An entry is excluded as soon as one rule fires. A plain
  pattern fires when the entry path matches it; a pattern written `!w` fires
  when the path does NOT match `w`, so it excludes everything outside `w`
  rather than rescuing what `w` matches.

  Glob compilation and matching belong to the `globset` crate; `Glob` carries
  them as two functions, `valid` (does `Glob::new` accept the pattern) and
  `matches`.
 */
module Exclusion {
  import opened Base
  import opened Paths

  /** The foreign glob engine. */
  datatype Glob = Glob(valid: string -> bool, matches: (string, Path) -> bool)

  /** A rule as `match_glob` reads it: a leading `!` is stripped once. */
  datatype Rule = Plain(pattern: string) | Negated(pattern: string)

  function ParseRule(s: string): (r: Rule)
    ensures r.Negated? <==> |s| > 0 && s[0] == '!'
    ensures r.Negated? ==> s == ['!'] + r.pattern
    ensures r.Plain? ==> r.pattern == s
  {
    if |s| > 0 && s[0] == '!' then Negated(s[1..]) else Plain(s)
  }

  /** Whether a rule excludes `path`. */
  predicate Fires(g: Glob, rule: Rule, path: Path) {
    match rule
    case Plain(w) => g.matches(w, path)
    case Negated(w) => !g.matches(w, path)
  }

  /** `anyhow::Result<bool>` as `match_glob` returns it. */
  datatype GlobResult = Decided(fires: bool) | InvalidPattern(pattern: string)

  /** `match_glob`: strip a leading `!`, compile the rest, and report whether
      the rule fires on `path`; an uncompilable pattern is an error. */
  function MatchGlob(g: Glob, pattern: string, path: Path): (r: GlobResult)
    ensures r.InvalidPattern? <==> !g.valid(ParseRule(pattern).pattern)
    ensures r.InvalidPattern? ==> r.pattern == pattern
    ensures r.Decided? && |pattern| > 0 && pattern[0] == '!' ==>
      r.fires == !g.matches(pattern[1..], path)
    ensures r.Decided? && !(|pattern| > 0 && pattern[0] == '!') ==>
      r.fires == g.matches(pattern, path)
  {
    if |pattern| > 0 && pattern[0] == '!' then
      var whitelist := pattern[1..];
      if !g.valid(whitelist) then InvalidPattern(pattern)
      else Decided(!g.matches(whitelist, path))
    else
      if !g.valid(pattern) then InvalidPattern(pattern)
      else Decided(g.matches(pattern, path))
  }

  /** The reference meaning of `--exclude`: some rule fires. */
  predicate Excluded(g: Glob, exclude: Option<seq<string>>, path: Path) {
    exclude.Some? && exists i :: 0 <= i < |exclude.value| && Fires(g, ParseRule(exclude.value[i]), path)
  }

  /** The loop stops at the first rule that fires, so only the rules up to it
      are ever compiled: an invalid pattern panics (`unwrap`) only when no
      earlier rule fired. */
  predicate NoPanic(g: Glob, rules: seq<string>, path: Path)
    decreases |rules|
  {
    || |rules| == 0
    || (&& g.valid(ParseRule(rules[0]).pattern)
        && (Fires(g, ParseRule(rules[0]), path) || NoPanic(g, rules[1..], path)))
  }

  /** How the loop over the rules ends: with `status` decided, or with the
      panic of `match_glob(..).unwrap()` on the first uncompilable pattern it
      reaches. */
  datatype LoopEnd = Finished(status: bool) | Panicked(pattern: string)

  /** The loop in the extraction closure computing `status`: it starts true
      and turns false, with a `break`, at the first rule that fires. */
  method ExclusionStatus(g: Glob, exclude: Option<seq<string>>, path: Path) returns (r: LoopEnd)
    ensures r.Panicked? <==> exclude.Some? && !NoPanic(g, exclude.value, path)
    ensures r.Panicked? ==> r.pattern in exclude.value && !g.valid(ParseRule(r.pattern).pattern)
    ensures r.Finished? ==> (r.status <==> !Excluded(g, exclude, path))
    ensures exclude.None? ==> r == Finished(true)
  {
    var status := true;
    if exclude.Some? {
      var rules := exclude.value;
      var i := 0;
      while i < |rules|
        invariant 0 <= i <= |rules|
        invariant status
        invariant forall j :: 0 <= j < i ==> !Fires(g, ParseRule(rules[j]), path)
        invariant NoPanic(g, rules, path) <==> NoPanic(g, rules[i..], path)
      {
        var m := MatchGlob(g, rules[i], path);
        match m
        case InvalidPattern(_) =>
          return Panicked(rules[i]);
        case Decided(fires) =>
          if fires {
            status := false;
            break;
          }
        assert rules[i..][1..] == rules[i + 1..];
        i := i + 1;
      }
    }
    r := Finished(status);
  }

  /** More rules can only exclude more: every rule of `a` also in `b` means
      anything `a` excludes, `b` excludes. */
  lemma MoreRulesExcludeMore(g: Glob, a: seq<string>, b: seq<string>, path: Path)
    requires forall x :: x in a ==> x in b
    ensures Excluded(g, Some(a), path) ==> Excluded(g, Some(b), path)
  {
    if Excluded(g, Some(a), path) {
      var i :| 0 <= i < |a| && Fires(g, ParseRule(a[i]), path);
      assert a[i] in b;
      var j :| 0 <= j < |b| && b[j] == a[i];
    }
  }

  /** The order of the rules, and repeats among them, do not matter. */
  lemma RuleOrderIrrelevant(g: Glob, a: seq<string>, b: seq<string>, path: Path)
    requires forall x :: x in a <==> x in b
    ensures Excluded(g, Some(a), path) <==> Excluded(g, Some(b), path)
  {
    MoreRulesExcludeMore(g, a, b, path);
    MoreRulesExcludeMore(g, b, a, path);
  }

  /** Without rules, or with an empty list, nothing is excluded. */
  lemma NoRulesExcludeNothing(g: Glob, path: Path)
    ensures !Excluded(g, None, path)
    ensures !Excluded(g, Some([]), path)
  {
  }

  /** A single `!w` rule excludes exactly the paths `w` does not match. */
  lemma NegatedRuleExcludesTheRest(g: Glob, w: string, path: Path)
    ensures Excluded(g, Some([['!'] + w]), path) <==> !g.matches(w, path)
  {
    var rule := ['!'] + w;
    assert rule[1..] == w;
    assert ParseRule(rule) == Negated(w);
    assert [rule][0] == rule;
  }

  /** A `!` rule never rescues a path that a plain rule matches, wherever
      the two stand in the list. */
  lemma NegationDoesNotRescue(g: Glob, rules: seq<string>, i: nat, path: Path)
    requires i < |rules|
    requires !(|rules[i]| > 0 && rules[i][0] == '!')
    requires g.matches(rules[i], path)
    ensures Excluded(g, Some(rules), path)
  {
    assert Fires(g, ParseRule(rules[i]), path);
  }
}

=== FILE: extraction.dfy ===
/**
  The Extract arm of `main` for one archive: for every entry index, decide
  exclusion, build the target path, refuse to overwrite when asked to, create
  the parent directory and the file, and bump the progress counter.

  The parallel iterator is a sequential loop in index order, the filesystem is
  a map of files to contents plus a set of directories, and an entry is its
  path and its decompressed bytes. What the closure decides from the entry
  alone (excluded or not, and the target path) is gathered in a `Plan`; only
  the existence check depends on what earlier entries did.
 */
module Extraction {
  import opened Base
  import opened Paths
  import opened Disk
  import opened Exclusion

  /** An archive entry: `full_path()` and the bytes its reader yields. */
  datatype Entry = Entry(path: Path, data: seq<byte>)

  /** The flags of the Extract subcommand that shape one entry's fate. */
  datatype Options = Options(sub: bool, exclude: Option<seq<string>>, neverOverwrite: bool, dest: Option<Path>)

  /** Everything fixed for one archive: the options, the archive's own path,
      and the two foreign libraries. */
  datatype Setup = Setup(opts: Options, archive: Path, glob: Glob, clean: string -> string)

  /** The terminal outcome of one entry. `Failed` is an `unwrap` of
      `create_dir_all` or `File::create` that panics. */
  datatype Outcome = Written(target: Path) | SkippedExcluded | SkippedExisting(target: Path) | Failed(target: Path)

  /** No `unwrap` in the closure panics for this entry: the archive has a
      stem when one is needed and the patterns the exclusion loop compiles
      are valid. */
  predicate Configured(s: Setup, e: Entry) {
    && (s.opts.sub ==> ArchiveStem(s.archive).Some?)
    && (s.opts.exclude.Some? ==> NoPanic(s.glob, s.opts.exclude.value, e.path))
  }

  predicate AllConfigured(s: Setup, entries: seq<Entry>) {
    forall i :: 0 <= i < |entries| ==> Configured(s, entries[i])
  }

  function Target(s: Setup, e: Entry): Path
    requires Configured(s, e)
  {
    TargetPath(s.opts.dest, s.opts.sub, ArchiveStem(s.archive), s.clean, e.path)
  }

  function IsExcluded(s: Setup, e: Entry): bool {
    Excluded(s.glob, s.opts.exclude, e.path)
  }

  /** What the closure knows about an entry before looking at the disk:
      whether it is excluded, its target path as built, and its bytes. */
  datatype Plan = Plan(excluded: bool, target: Path, data: seq<byte>)

  function PlanOf(s: Setup, e: Entry): Plan
    requires Configured(s, e)
  {
    Plan(IsExcluded(s, e), Target(s, e), e.data)
  }

  /** The plans of all entries, index by index. */
  function Plans(s: Setup, entries: seq<Entry>): (ps: seq<Plan>)
    requires AllConfigured(s, entries)
    ensures |ps| == |entries|
    ensures forall i :: 0 <= i < |entries| ==> ps[i] == PlanOf(s, entries[i])
  {
    seq(|entries|, i requires 0 <= i < |entries| => PlanOf(s, entries[i]))
  }

  /** The target can be written in place: its parent leads to a directory
      and its last component is a name that is not a directory. */
  predicate Writable(fs: Fs, t: Path) {
    EndsInName(t) && DirExists(fs, t[..|t| - 1]) && !IsDir(fs, Resolve(t))
  }

  /** One entry, as the reference definition: excluded entries and, under
      `--never-overwrite`, entries whose target path exists are skipped;
      every other entry gets its parent directory when the parent path does
      not exist, and then its file. */
  function Step(neverOverwrite: bool, fs: Fs, p: Plan): (r: (Fs, Outcome))
    ensures r.1.SkippedExcluded? <==> p.excluded
    ensures r.1.SkippedExisting? <==> !p.excluded && neverOverwrite && PathExists(fs, p.target)
    ensures !r.1.SkippedExcluded? ==> r.1.target == p.target
    // a written entry's bytes are in the file its target leads to, and no other file changed
    ensures r.1.Written? ==> r.0.files == fs.files[Resolve(p.target) := p.data] && PathExists(r.0, p.target)
    // only a target that ends in a name is ever written
    ensures r.1.Written? ==> EndsInName(p.target)
    ensures !r.1.Written? ==> r.0 == fs
    ensures fs.dirs <= r.0.dirs && fs.files.Keys <= r.0.files.Keys
    ensures Tree(fs) ==> Tree(r.0)
    // with the parent directory in place and no directory at the target, the write goes through
    ensures r.1.Failed? ==> !Writable(fs, p.target)
  {
    if p.excluded then (fs, SkippedExcluded)
    else if neverOverwrite && PathExists(fs, p.target) then (fs, SkippedExisting(p.target))
    else Attempt(fs, p)
  }

  /** A kept entry: its parent directory, then its file. */
  function Attempt(fs: Fs, p: Plan): (r: (Fs, Outcome))
    ensures r.1 == Written(p.target) || r.1 == Failed(p.target)
  {
    var made := MakeParent(fs, p.target);
    if made.None? then (fs, Failed(p.target))
    else
      var created := CreateFile(made.value, p.target, p.data);
      if created.None? then (fs, Failed(p.target))
      else
        WalkGrows(fs, created.value, p.target);
        (created.value, Written(p.target))
  }

  /** The directory step of a kept entry: `create_dir_all` of the parent
      path when that path does not exist. */
  function MakeParent(fs: Fs, t: Path): (r: Option<Fs>)
    ensures r.Some? ==> r.value.files == fs.files && fs.dirs <= r.value.dirs
    ensures r.Some? && Tree(fs) ==> Tree(r.value)
    // the directories added are those along the parent path
    ensures r.Some? ==> forall k :: k in r.value.dirs && k !in fs.dirs ==>
      exists j :: 1 <= j < |t| && k == Resolve(t[..j])
    // a parent that is a directory already is left as it is
    ensures |t| > 0 && DirExists(fs, t[..|t| - 1]) ==> r == Some(fs)
    // on a directory tree with no file in the way, a missing parent is created
    ensures Tree(fs) && |t| > 0 && (forall j :: 1 <= j < |t| ==> Resolve(t[..j]) !in fs.files) ==>
      r.Some? && DirExists(r.value, t[..|t| - 1])
  {
    match ParentOf(t)
    case Some(q) =>
      assert forall j :: 1 <= j <= |q| ==> q[..j] == t[..j];
      if PathExists(fs, q) then Some(fs) else CreateDirAll(fs, q)
    case None => Some(fs)
  }

  /** The body of the per-index closure, written as the program writes it:
      the exclusion loop sets `status`, the existence check may clear it, and
      only then are the directory and file created. */
  method ExtractEntry(s: Setup, fs: Fs, e: Entry) returns (fs': Fs, outcome: Outcome)
    requires Configured(s, e)
    ensures (fs', outcome) == Step(s.opts.neverOverwrite, fs, PlanOf(s, e))
  {
    var verdict := ExclusionStatus(s.glob, s.opts.exclude, e.path);
    assert verdict.Finished?;
    var status := verdict.status;
    var excluded := !status;

    var path: Path := [];
    if s.opts.dest.Some? {
      path := Push(path, s.opts.dest.value);
    }
    if s.opts.sub {
      path := Push(path, NameToPath(ArchiveStem(s.archive).value));
    }
    path := Push(path, Sanitize(s.clean, e.path));

    if PathExists(fs, path) {
      if s.opts.neverOverwrite {
        status := false;
      }
    }

    assert path == PlanOf(s, e).target;

    if status {
      var made: Option<Fs> := Some(fs);
      var parent := ParentOf(path);
      if parent.Some? {
        if !PathExists(fs, parent.value) {
          made := CreateDirAll(fs, parent.value);
        }
      }
      assert made == MakeParent(fs, path);
      // both results are unwrapped: an error panics
      var created := if made.Some? then CreateFile(made.value, path, e.data) else None;
      if created.Some? {
        fs', outcome := created.value, Written(path);
      } else {
        fs', outcome := fs, Failed(path);
      }
      assert (fs', outcome) == Attempt(fs, PlanOf(s, e));
    } else {
      fs' := fs;
      outcome := if excluded then SkippedExcluded else SkippedExisting(path);
    }
  }

  /** Where no destination and no sub-directory are given, a relative entry
      whose names `clean` keeps as they are targets its own path. */
  lemma PlainTarget(s: Setup, e: Entry)
    requires s.opts.dest.None? && !s.opts.sub
    requires Root !in e.path && Sanitize(s.clean, e.path) == e.path
    ensures Configured(s, e) ==> Target(s, e) == e.path
  {
    TargetOfRelativeEntry(None, false, ArchiveStem(s.archive), s.clean, e.path);
    assert TargetBase(None, false, ArchiveStem(s.archive)) == [];
  }

  /** A kept entry that gets past the existence check is written when its
      target can be: on a directory tree, with a target path that has no
      `..`, ends in a name that is not a directory, and has no file in the
      way of its parent directory, the missing part of which is created. */
  lemma StepWritesKeptEntry(neverOverwrite: bool, fs: Fs, p: Plan)
    requires Tree(fs) && !p.excluded && !(neverOverwrite && PathExists(fs, p.target))
    requires Downward(p.target) && EndsInName(p.target) && !IsDir(fs, Resolve(p.target))
    requires forall j :: 1 <= j < |p.target| ==> Resolve(p.target[..j]) !in fs.files
    ensures Step(neverOverwrite, fs, p).1 == Written(p.target)
  {
    var t := p.target;
    var q := t[..|t| - 1];
    var f := MakeParent(fs, t).value;
    assert Downward(q) by {
      assert forall i :: 0 <= i < |q| ==> q[i] == t[i];
    }
    assert Resolve(t) == Resolve(q) + [t[|t| - 1]];
    forall j | 1 <= j < |t|
      ensures Resolve(t[..j]) != Resolve(t)
    {
      assert q[..j] == t[..j];
      DownwardPrefix(q, j);
    }
    assert !IsDir(f, Resolve(t));
    assert CreateFile(f, t, p.data).Some?;
  }

  /** An entry whose last name `clean` turns into nothing, `.` or `..` (as
      `sanitize_filename` does with `?` or `...`) is never written: its
      target path is empty, or ends in a trailing separator, `.` or `..`,
      and `File::create` fails on each. A kept one fails when nothing stops
      it before, and an empty target gets past `--never-overwrite`, since
      the empty path does not exist. */
  lemma NamelessTargetIsNeverWritten(s: Setup, fs: Fs, e: Entry)
    requires Configured(s, e)
    requires EndsInName(e.path) && s.clean(e.path[|e.path| - 1].name) in {"", ".", ".."}
    ensures !Step(s.opts.neverOverwrite, fs, PlanOf(s, e)).1.Written?
    ensures !IsExcluded(s, e) && (!s.opts.neverOverwrite || Target(s, e) == []) ==>
      Step(s.opts.neverOverwrite, fs, PlanOf(s, e)) == (fs, Failed(Target(s, e)))
  {
  }

  /** Under `--never-overwrite`, a kept entry whose target path exists is
      skipped and changes nothing. */
  lemma SkipsExisting(fs: Fs, p: Plan)
    requires !p.excluded && PathExists(fs, p.target)
    ensures Step(true, fs, p) == (fs, SkippedExisting(p.target))
  {
  }

  /** An entry `./a` extracted with `--never-overwrite` into the working
      directory where a file `a` already exists is skipped. */
  lemma DotAliasIsSpared(s: Setup, fs: Fs, a: string, data: seq<byte>)
    requires s.opts == Options(false, None, true, None)
    requires ProperName(a) && s.clean(a) == a
    requires [Normal(a)] in fs.files
    ensures Step(true, fs, PlanOf(s, Entry([Cur, Normal(a)], data))) == (fs, SkippedExisting([Cur, Normal(a)]))
  {
    var e := Entry([Cur, Normal(a)], data);
    assert WellFormed(e.path);
    SanitizeKeepsCleanPath(s.clean, e.path);
    PlainTarget(s, e);
    assert PlanOf(s, e) == Plan(false, e.path, data);
    WalkStep(fs, [], Cur);
    assert [] + [Cur] == [Cur];
    assert Walk(fs, [Cur]) == Some([]);
    assert DirExists(fs, [Cur]) && Resolve([Cur]) == [];
    assert Enter([], Normal(a)) == [Normal(a)];
    WalkStep(fs, [Cur], Normal(a));
    assert [Cur] + [Normal(a)] == e.path;
    assert Walk(fs, e.path) == Some([Normal(a)]);
    SkipsExisting(fs, Plan(false, e.path, data));
  }

  /** Likewise an entry `b/../a` where `b` is an existing directory: the
      `..` that survives sanitizing leads back to the existing file `a`. */
  lemma ParentAliasIsSpared(s: Setup, fs: Fs, a: string, b: string, data: seq<byte>)
    requires s.opts == Options(false, None, true, None)
    requires ProperName(a) && ProperName(b) && s.clean(a) == a && s.clean(b) == b
    requires [Normal(a)] in fs.files && [Normal(b)] in fs.dirs
    ensures var t := [Normal(b), Parent, Normal(a)];
      Step(true, fs, PlanOf(s, Entry(t, data))) == (fs, SkippedExisting(t))
  {
    var e := Entry([Normal(b), Parent, Normal(a)], data);
    assert WellFormed(e.path);
    SanitizeKeepsCleanPath(s.clean, e.path);
    PlainTarget(s, e);
    assert PlanOf(s, e) == Plan(false, e.path, data);
    WalkTwoUp(fs, a, b);
    SkipsExisting(fs, Plan(false, e.path, data));
  }

  /** The lookup of `b/../a` reaches `a` exactly when `b` is a directory. */
  lemma WalkTwoUp(fs: Fs, a: string, b: string)
    ensures Walk(fs, [Normal(b), Parent, Normal(a)]) == if IsDir(fs, [Normal(b)]) then Some([Normal(a)]) else None
  {
    WalkStep(fs, [], Normal(b));
    assert [] + [Normal(b)] == [Normal(b)];
    assert DirExists(fs, []) && Resolve([]) == [];
    assert Walk(fs, [Normal(b)]) == Some([Normal(b)]);
    WalkStep(fs, [Normal(b)], Parent);
    assert [Normal(b)] + [Parent] == [Normal(b), Parent];
    assert Enter([Normal(b)], Parent) == [];
    assert Enter([], Normal(a)) == [Normal(a)];
    if IsDir(fs, [Normal(b)]) {
      assert Walk(fs, [Normal(b), Parent]) == Some([]);
      assert DirExists(fs, [Normal(b), Parent]) && Resolve([Normal(b), Parent]) == [];
    } else {
      assert Walk(fs, [Normal(b), Parent]).None?;
    }
    WalkStep(fs, [Normal(b), Parent], Normal(a));
    assert [Normal(b), Parent] + [Normal(a)] == [Normal(b), Parent, Normal(a)];
  }

  /** Where `b` is not a directory, the lookup of `b/../a` fails although a
      file `a` exists, so `--never-overwrite` lets the entry through;
      `create_dir_all("b/..")` creates `b`, and `File::create` truncates and
      rewrites `a`. */
  lemma DanglingParentOverwrites(a: string, b: string, previous: seq<byte>, data: seq<byte>)
    requires a != b
    ensures var fs := Fs(map[[Normal(a)] := previous], {});
      var t := [Normal(b), Parent, Normal(a)];
      && Tree(fs)
      && Step(true, fs, Plan(false, t, data)) == (Fs(map[[Normal(a)] := data], {[Normal(b)]}), Written(t))
  {
    var fs := Fs(map[[Normal(a)] := previous], {});
    var t := [Normal(b), Parent, Normal(a)];
    var up := [Normal(b), Parent];
    assert Tree(fs) by {
      assert [Normal(a)][..0] == [];
    }
    // the existence check: the lookup of `b/../a`, and of its parent `b/..`, fails
    assert !PathExists(fs, t) by {
      WalkTwoUp(fs, a, b);
    }
    assert ParentOf(t) == Some(up) by {
      assert t[..2] == up;
    }
    assert !PathExists(fs, up) by {
      WalkStep(fs, [], Normal(b));
      assert [] + [Normal(b)] == [Normal(b)];
      WalkStep(fs, [Normal(b)], Parent);
      assert [Normal(b)] + [Parent] == up;
    }
    // `create_dir_all("b/..")` makes `b`, then `File::create("b/../a")` reaches `a`
    var fs1 := Fs(fs.files, {[Normal(b)]});
    var g := Fs(map[[Normal(a)] := data], {[Normal(b)]});
    assert CreateDirAll(fs, up) == Some(fs1) by {
      CreatesParentDir(a, b, previous);
    }
    assert CreateFile(fs1, t, data) == Some(g) by {
      RewritesA(a, b, previous, data);
    }
    StepWrites(fs, Plan(false, t, data), up, fs1, g);
  }

  /** `File::create("b/../a")` once `b` exists truncates and fills `a`. */
  lemma RewritesA(a: string, b: string, previous: seq<byte>, data: seq<byte>)
    requires a != b
    ensures CreateFile(Fs(map[[Normal(a)] := previous], {[Normal(b)]}), [Normal(b), Parent, Normal(a)], data)
      == Some(Fs(map[[Normal(a)] := data], {[Normal(b)]}))
  {
    var fs1 := Fs(map[[Normal(a)] := previous], {[Normal(b)]});
    var t := [Normal(b), Parent, Normal(a)];
    assert Walk(fs1, t[..2]) == Some([]) by {
      WalkStep(fs1, [], Normal(b));
      assert [] + [Normal(b)] == [Normal(b)];
      assert Walk(fs1, [Normal(b)]) == Some([Normal(b)]);
      WalkStep(fs1, [Normal(b)], Parent);
      assert [Normal(b)] + [Parent] == t[..2];
    }
    assert Enter([], t[2]) == [Normal(a)];
    assert !IsDir(fs1, [Normal(a)]) by {
      assert [Normal(a)][0] != Parent;
    }
    assert fs1.files[[Normal(a)] := data] == map[[Normal(a)] := data];
  }

  /** An entry that passes the existence check and whose parent is missing
      is written once `create_dir_all` and `File::create` succeed. */
  lemma StepWrites(fs: Fs, p: Plan, q: Path, f: Fs, g: Fs)
    requires !p.excluded && !PathExists(fs, p.target)
    requires ParentOf(p.target) == Some(q) && !PathExists(fs, q)
    requires CreateDirAll(fs, q) == Some(f) && CreateFile(f, p.target, p.data) == Some(g)
    ensures Step(true, fs, p) == (g, Written(p.target))
  {
  }

  /** `create_dir_all("b/..")` on a disk holding just the file `a` makes
      the directory `b`. */
  lemma CreatesParentDir(a: string, b: string, previous: seq<byte>)
    requires a != b
    ensures var fs := Fs(map[[Normal(a)] := previous], {});
      CreateDirAll(fs, [Normal(b), Parent]) == Some(Fs(fs.files, {[Normal(b)]}))
  {
    var fs := Fs(map[[Normal(a)] := previous], {});
    var fs1 := Fs(fs.files, {[Normal(b)]});
    MakesB(fs, b);
    assert CreateDirAll(fs, [Normal(b)]) == Some(fs1) by {
      assert [Normal(b)][..0] == [];
    }
    KeepsUp(fs1, b);
    assert [Normal(b), Parent][..1] == [Normal(b)];
  }

  lemma MakesB(fs: Fs, b: string)
    requires fs.dirs == {} && [Normal(b)] !in fs.files
    ensures MakeDir(fs, [Normal(b)]) == Some(fs.(dirs := {[Normal(b)]}))
  {
    assert [Normal(b)][..0] == [];
    assert Walk(fs, []) == Some([]);
    assert !Implicit([Normal(b)]) by {
      assert [Normal(b)][0] != Parent;
    }
    assert Enter([], Normal(b)) == [Normal(b)];
    assert !IsDir(fs, [Normal(b)]);
    assert fs.dirs + {[Normal(b)]} == {[Normal(b)]};
  }

  lemma KeepsUp(fs: Fs, b: string)
    requires [Normal(b)] in fs.dirs
    ensures MakeDir(fs, [Normal(b), Parent]) == Some(fs)
  {
    assert Walk(fs, [Normal(b), Parent][..1]) == Some([Normal(b)]) by {
      WalkStep(fs, [], Normal(b));
      assert [] + [Normal(b)] == [Normal(b)] == [Normal(b), Parent][..1];
    }
  }

  /** The entry `b/../a` of an archive, extracted with `--never-overwrite`
      into the working directory, overwrites the existing file `a` when `b`
      does not exist. */
  lemma ParentAliasOverwrites(s: Setup, a: string, b: string, previous: seq<byte>, data: seq<byte>)
    requires s.opts == Options(false, None, true, None)
    requires ProperName(a) && ProperName(b) && a != b && s.clean(a) == a && s.clean(b) == b
    ensures var fs := Fs(map[[Normal(a)] := previous], {});
      var t := [Normal(b), Parent, Normal(a)];
      && Tree(fs)
      && Step(true, fs, PlanOf(s, Entry(t, data))) == (Fs(map[[Normal(a)] := data], {[Normal(b)]}), Written(t))
  {
    var e := Entry([Normal(b), Parent, Normal(a)], data);
    assert WellFormed(e.path);
    SanitizeKeepsCleanPath(s.clean, e.path);
    PlainTarget(s, e);
    assert PlanOf(s, e) == Plan(false, e.path, data);
    DanglingParentOverwrites(a, b, previous, data);
  }

  /** State after some indices: the filesystem, one outcome per index, and
      the progress counter. */
  datatype Progress = Progress(fs: Fs, outcomes: seq<Outcome>, count: nat)

  /** The loop over `0..ipf.len()`, in index order, on the entries' plans. */
  function Run(neverOverwrite: bool, fs0: Fs, plans: seq<Plan>): (r: Progress)
    // one increment and one outcome per index, whatever the outcome
    ensures r.count == |plans| && |r.outcomes| == |plans|
    ensures forall i :: 0 <= i < |plans| ==> (r.outcomes[i].SkippedExcluded? <==> plans[i].excluded)
    ensures forall i :: 0 <= i < |plans| && !r.outcomes[i].SkippedExcluded? ==> r.outcomes[i].target == plans[i].target
    decreases |plans|
  {
    if |plans| == 0 then Progress(fs0, [], 0)
    else
      var n := |plans| - 1;
      var prev := Run(neverOverwrite, fs0, plans[..n]);
      var step := Step(neverOverwrite, prev.fs, plans[n]);
      Progress(step.0, prev.outcomes + [step.1], prev.count + 1)
  }

  /** The last index of a run is decided on what the run before it left. */
  lemma RunExtends(neverOverwrite: bool, fs0: Fs, plans: seq<Plan>)
    requires |plans| > 0
    ensures var n := |plans| - 1;
            var prev := Run(neverOverwrite, fs0, plans[..n]);
            var step := Step(neverOverwrite, prev.fs, plans[n]);
            && Run(neverOverwrite, fs0, plans).outcomes == prev.outcomes + [step.1]
            && Run(neverOverwrite, fs0, plans).fs == step.0
  {
  }

  /** One more index of the loop: the run so far, followed by one `Step`. */
  lemma RunNext(neverOverwrite: bool, fs0: Fs, plans: seq<Plan>, i: nat,
                fs: Fs, outcomes: seq<Outcome>, count: nat, fs': Fs, outcome: Outcome)
    requires i < |plans|
    requires Progress(fs, outcomes, count) == Run(neverOverwrite, fs0, plans[..i])
    requires (fs', outcome) == Step(neverOverwrite, fs, plans[i])
    ensures Progress(fs', outcomes + [outcome], count + 1) == Run(neverOverwrite, fs0, plans[..i + 1])
  {
    assert plans[..i + 1][..i] == plans[..i];
    RunExtends(neverOverwrite, fs0, plans[..i + 1]);
  }

  /** The extraction loop of one archive, index by index, with the progress
      counter it bumps. */
  method ExtractArchive(s: Setup, fs0: Fs, entries: seq<Entry>) returns (fs: Fs, outcomes: seq<Outcome>, progress: nat)
    requires AllConfigured(s, entries)
    ensures Progress(fs, outcomes, progress) == Run(s.opts.neverOverwrite, fs0, Plans(s, entries))
    ensures progress == |entries|
  {
    var plans := Plans(s, entries);
    fs, outcomes, progress := fs0, [], 0;
    var i := 0;
    while i < |entries|
      invariant 0 <= i <= |entries|
      invariant Progress(fs, outcomes, progress) == Run(s.opts.neverOverwrite, fs0, plans[..i])
    {
      var outcome;
      ghost var before := fs;
      fs, outcome := ExtractEntry(s, fs, entries[i]);
      RunNext(s.opts.neverOverwrite, fs0, plans, i, before, outcomes, progress, fs, outcome);
      outcomes := outcomes + [outcome];
      progress := progress + 1;
      i := i + 1;
    }
    assert plans[..i] == plans;
  }

  /** Each entry's outcome is decided against the filesystem as the entries
      before it left it. */
  lemma {:induction false} RunDecidesEachEntry(neverOverwrite: bool, fs0: Fs, plans: seq<Plan>, i: nat)
    requires i < |plans|
    ensures Run(neverOverwrite, fs0, plans).outcomes[i] ==
      Step(neverOverwrite, Run(neverOverwrite, fs0, plans[..i]).fs, plans[i]).1
    decreases |plans|
  {
    var n := |plans| - 1;
    RunExtends(neverOverwrite, fs0, plans);
    if i < n {
      RunDecidesEachEntry(neverOverwrite, fs0, plans[..n], i);
      assert plans[..n][..i] == plans[..i];
      assert plans[..n][i] == plans[i];
      assert Run(neverOverwrite, fs0, plans).outcomes[i] == Run(neverOverwrite, fs0, plans[..n]).outcomes[i];
    } else {
      assert plans[..i] == plans[..n];
    }
  }

  /** Nothing that existed disappears, a directory tree stays one, and every
      entry that was written or found existing has its target path on disk
      afterwards. */
  lemma {:induction false} RunKeepsTargets(neverOverwrite: bool, fs0: Fs, plans: seq<Plan>)
    ensures var r := Run(neverOverwrite, fs0, plans);
      && fs0.dirs <= r.fs.dirs && fs0.files.Keys <= r.fs.files.Keys
      && (Tree(fs0) ==> Tree(r.fs))
      && forall i :: 0 <= i < |plans| && (r.outcomes[i].Written? || r.outcomes[i].SkippedExisting?) ==>
           PathExists(r.fs, plans[i].target)
    decreases |plans|
  {
    if |plans| > 0 {
      var n := |plans| - 1;
      RunExtends(neverOverwrite, fs0, plans);
      RunKeepsTargets(neverOverwrite, fs0, plans[..n]);
      var prev := Run(neverOverwrite, fs0, plans[..n]);
      var r := Run(neverOverwrite, fs0, plans);
      forall i | 0 <= i < |plans| && (r.outcomes[i].Written? || r.outcomes[i].SkippedExisting?)
        ensures PathExists(r.fs, plans[i].target)
      {
        if i < n {
          assert plans[..n][i] == plans[i];
          assert r.outcomes[i] == prev.outcomes[i];
          PathExistsGrows(prev.fs, r.fs, plans[i].target);
        }
      }
    }
  }

  /** Without `--never-overwrite`, no entry is skipped for existing: every
      entry that is not excluded is written, unless creating it panics. */
  lemma {:induction false} OverwriteWritesEveryKeptEntry(fs0: Fs, plans: seq<Plan>)
    ensures forall i :: 0 <= i < |plans| ==>
      (Run(false, fs0, plans).outcomes[i].Written? || Run(false, fs0, plans).outcomes[i].Failed? <==> !plans[i].excluded)
    decreases |plans|
  {
    if |plans| > 0 {
      var n := |plans| - 1;
      RunExtends(false, fs0, plans);
      OverwriteWritesEveryKeptEntry(fs0, plans[..n]);
      assert forall i :: 0 <= i < n ==> plans[..n][i] == plans[i];
    }
  }

  /** With `--never-overwrite`, on a directory tree, no file that existed
      before the run is written by it, as long as no target path goes up
      with `..` (`ParentAliasOverwrites` shows one that does). */
  lemma {:induction false} NeverOverwriteSparesExisting(fs0: Fs, plans: seq<Plan>)
    requires Tree(fs0)
    requires forall i :: 0 <= i < |plans| ==> Downward(plans[i].target)
    ensures forall i :: 0 <= i < |plans| && Run(true, fs0, plans).outcomes[i].Written? ==>
      Resolve(plans[i].target) !in fs0.files
    decreases |plans|
  {
    if |plans| > 0 {
      var n := |plans| - 1;
      RunExtends(true, fs0, plans);
      assert forall i :: 0 <= i < n ==> plans[..n][i] == plans[i];
      NeverOverwriteSparesExisting(fs0, plans[..n]);
      RunKeepsTargets(true, fs0, plans[..n]);
      StepSparesExisting(Run(true, fs0, plans[..n]).fs, plans[n]);
    }
  }

  /** One entry under `--never-overwrite` whose target path does not go up:
      when it is written, nothing was at its file before. */
  lemma StepSparesExisting(fs: Fs, p: Plan)
    requires Tree(fs) && Downward(p.target)
    ensures Step(true, fs, p).1.Written? ==> Resolve(p.target) !in fs.files
  {
    if Step(true, fs, p).1.Written? && Resolve(p.target) in fs.files {
      var t := p.target;
      assert |t| > 0 && t[|t| - 1].Normal?;
      DownwardLookup(fs, t);
    }
  }

  /** Only files that written entries lead to are created or changed. */
  lemma {:induction false} RunChangesOnlyTargets(neverOverwrite: bool, fs0: Fs, plans: seq<Plan>)
    ensures var r := Run(neverOverwrite, fs0, plans);
      forall k :: k in r.fs.files && (k !in fs0.files || r.fs.files[k] != fs0.files[k]) ==>
        exists i :: 0 <= i < |plans| && r.outcomes[i].Written? && Resolve(plans[i].target) == k
    decreases |plans|
  {
    if |plans| > 0 {
      var n := |plans| - 1;
      var prev := Run(neverOverwrite, fs0, plans[..n]);
      var r := Run(neverOverwrite, fs0, plans);
      assert r.fs == Step(neverOverwrite, prev.fs, plans[n]).0 && r.outcomes[..n] == prev.outcomes
        && r.outcomes[n] == Step(neverOverwrite, prev.fs, plans[n]).1 by {
        RunExtends(neverOverwrite, fs0, plans);
      }
      forall k | k in r.fs.files && (k !in fs0.files || r.fs.files[k] != fs0.files[k])
        ensures exists i :: 0 <= i < |plans| && r.outcomes[i].Written? && Resolve(plans[i].target) == k
      {
        if k in prev.fs.files && r.fs.files[k] == prev.fs.files[k] {
          RunChangesOnlyTargets(neverOverwrite, fs0, plans[..n]);
          var i :| 0 <= i < n && prev.outcomes[i].Written? && Resolve(plans[..n][i].target) == k;
          assert r.outcomes[i] == r.outcomes[..n][i] && plans[..n][i] == plans[i];
        } else {
          StepChangesOnlyTarget(neverOverwrite, prev.fs, plans[n]);
        }
      }
    }
  }

  /** One entry changes at most the file its target leads to, and only by
      writing it. */
  lemma StepChangesOnlyTarget(neverOverwrite: bool, fs: Fs, p: Plan)
    ensures var r := Step(neverOverwrite, fs, p);
      forall k :: k in r.0.files && (k !in fs.files || r.0.files[k] != fs.files[k]) ==>
        r.1.Written? && Resolve(p.target) == k
  {
  }

  /** With `--never-overwrite` and every kept entry's target path already
      present, a run writes nothing and leaves the filesystem alone. */
  lemma {:induction false} NothingToOverwrite(fs: Fs, plans: seq<Plan>)
    requires forall i :: 0 <= i < |plans| && !plans[i].excluded ==> PathExists(fs, plans[i].target)
    ensures Run(true, fs, plans).fs == fs
    ensures forall i :: 0 <= i < |plans| ==> !Run(true, fs, plans).outcomes[i].Written?
    decreases |plans|
  {
    if |plans| > 0 {
      var n := |plans| - 1;
      var prev := Run(true, fs, plans[..n]);
      assert prev.fs == fs && forall i :: 0 <= i < n ==> !prev.outcomes[i].Written? by {
        assert forall i :: 0 <= i < n ==> plans[..n][i] == plans[i];
        NothingToOverwrite(fs, plans[..n]);
      }
      StepKeeps(fs, plans[n]);
      RunExtends(true, fs, plans);
    }
  }

  /** Under `--never-overwrite`, an entry that is excluded or whose target
      path exists leaves the disk alone. */
  lemma StepKeeps(fs: Fs, p: Plan)
    requires !p.excluded ==> PathExists(fs, p.target)
    ensures Step(true, fs, p).0 == fs && !Step(true, fs, p).1.Written?
  {
  }

  /** Running the extraction again with `--never-overwrite` on what a first
      run without panics produced writes nothing: every entry is skipped. */
  lemma RerunWritesNothing(s: Setup, fs0: Fs, entries: seq<Entry>)
    requires AllConfigured(s, entries)
    ensures var first := Run(s.opts.neverOverwrite, fs0, Plans(s, entries));
            var again := s.(opts := s.opts.(neverOverwrite := true));
            && AllConfigured(again, entries)
            && Plans(again, entries) == Plans(s, entries)
            && ((forall i :: 0 <= i < |entries| ==> !first.outcomes[i].Failed?) ==>
                 && Run(true, first.fs, Plans(again, entries)).fs == first.fs
                 && forall i :: 0 <= i < |entries| ==> !Run(true, first.fs, Plans(again, entries)).outcomes[i].Written?)
  {
    var plans := Plans(s, entries);
    var first := Run(s.opts.neverOverwrite, fs0, plans);
    PlansIgnoreNeverOverwrite(s, entries);
    if forall i :: 0 <= i < |entries| ==> !first.outcomes[i].Failed? {
      RunKeepsTargets(s.opts.neverOverwrite, fs0, plans);
      NothingToOverwrite(first.fs, plans);
    }
  }

  /** The plans do not depend on `--never-overwrite`. */
  lemma PlansIgnoreNeverOverwrite(s: Setup, entries: seq<Entry>)
    requires AllConfigured(s, entries)
    ensures var again := s.(opts := s.opts.(neverOverwrite := true));
      AllConfigured(again, entries) && Plans(again, entries) == Plans(s, entries)
  {
    var again := s.(opts := s.opts.(neverOverwrite := true));
    assert forall i :: 0 <= i < |entries| ==> Configured(again, entries[i]) && PlanOf(again, entries[i]) == PlanOf(s, entries[i]);
  }
}

=== FILE: paths.dfy ===
/**
  Paths as `std::path` sees them: a sequence of components. This module holds
  `PathBuf::push`, the file-name helpers the extraction loop calls, the
  component-wise `sanitize` of `src/main.rs` and the composition of the target
  path of an entry.

  `sanitize_filename::sanitize` is a foreign function: it is the parameter
  `clean` throughout. A string handed to `PathBuf::push` is read back as a
  path by `NameToPath`.
 */
module Paths {
  import opened Base

  /** `std::path::Component` on a Unix platform. */
  datatype Component = Root | Cur | Parent | Normal(name: string)

  type Path = seq<Component>

  /** A path with a root; pushing one replaces the path pushed onto. */
  predicate IsAbsolute(p: Path) {
    |p| > 0 && p[0] == Root
  }

  /** A name that reads back as exactly one `Normal` component. */
  predicate ProperName(s: string) {
    s != "" && s != "." && s != ".." && '/' !in s
  }

  /** The shape `Path::components` produces: a root or a `.` only in front,
      and every `Normal` component a proper name. */
  predicate WellFormed(p: Path) {
    forall i :: 0 <= i < |p| ==>
      && (0 < i ==> p[i] != Root && p[i] != Cur)
      && (p[i].Normal? ==> ProperName(p[i].name))
  }

  /** The path ends in a name, the only kind of last component a file can
      be created under. */
  predicate EndsInName(p: Path) {
    |p| > 0 && p[|p| - 1].Normal?
  }

  /** A path without a root pushed onto `base`: a separator joins the two.
      Pushing the empty path onto a non-empty one leaves only that
      separator behind, so `d` becomes `d/`. The trailing separator is
      written here as a final `.`: a lookup of `d/` and of `d/.` both need
      `d` to be a directory, and no file can be created under either. */
  function Join(base: Path, p: Path): Path {
    if p == [] && base != [] then base + [Cur] else base + p
  }

  /** `PathBuf::push`: an absolute path replaces the base, anything else is
      joined to it. */
  function Push(base: Path, p: Path): (r: Path)
    ensures IsAbsolute(p) ==> r == p
    ensures !IsAbsolute(p) ==> r == Join(base, p)
    // the base is kept in front, and the path pushed ends the result
    ensures !IsAbsolute(p) ==> |base| <= |r| && r[..|base|] == base
    ensures EndsInName(r) <==> EndsInName(p)
  {
    if IsAbsolute(p) then p else Join(base, p)
  }

  /** The path a separator-free string denotes when pushed onto a `PathBuf`. */
  function NameToPath(s: string): (r: Path)
    ensures !IsAbsolute(r)
    ensures |r| <= 1
    ensures ProperName(s) ==> r == [Normal(s)]
  {
    if s == "" then []
    else if s == "." then [Cur]
    else if s == ".." then [Parent]
    else [Normal(s)]
  }

  /** `Path::file_name`: the last component when it is a `Normal` one. */
  function FileName(p: Path): (r: Option<string>)
    ensures r.Some? <==> |p| > 0 && p[|p| - 1].Normal?
    ensures r.Some? ==> r.value == p[|p| - 1].name
  {
    if |p| > 0 && p[|p| - 1].Normal? then Some(p[|p| - 1].name) else None
  }

  /** Index of the last `.` in `s`, if any. */
  function LastDot(s: string): (r: Option<nat>)
    ensures r.Some? ==> r.value < |s| && s[r.value] == '.' && '.' !in s[r.value + 1..]
    ensures r.None? ==> '.' !in s
  {
    if |s| == 0 then None
    else if s[|s| - 1] == '.' then Some(|s| - 1)
    else
      var k := LastDot(s[..|s| - 1]);
      assert s == s[..|s| - 1] + [s[|s| - 1]];
      k
  }

  /** `Path::file_stem` of a file name: the part before the last `.`, unless
      that part would be empty (a leading dot is not an extension). */
  function FileStem(name: string): (stem: string)
    requires name != ""
    ensures stem != ""
    ensures |stem| <= |name| && stem == name[..|stem|]
    // either the whole name, or the name cut at its last dot
    ensures stem == name || (name[|stem|] == '.' && '.' !in name[|stem| + 1..])
    ensures '.' !in name[1..] ==> stem == name
    // a dot after the first character marks an extension, and it is dropped
    ensures '.' in name[1..] ==> |stem| < |name| && name[|stem|] == '.' && '.' !in name[|stem| + 1..]
  {
    match LastDot(name)
    case None => name
    case Some(k) =>
      if k == 0 then name
      else
        assert '.' !in name[k + 1..];
        name[..k]
  }

  /** Taking the stem undoes appending an extension: for a non-empty base
      and an extension without dots, the stem of `base.ext` is `base`. */
  lemma StemDropsExtension(base: string, ext: string)
    requires base != "" && '.' !in ext
    ensures FileStem(base + ['.'] + ext) == base
  {
    var name := base + ['.'] + ext;
    assert name[1..][|base| - 1] == '.';
    assert name[..|base|] == base;
  }

  /** The stem of the archive's own file name, `file.file_stem()`. */
  function ArchiveStem(archive: Path): (r: Option<string>)
    ensures r.Some? <==> FileName(archive).Some?
    ensures r.Some? && FileName(archive).value != "" ==> r.value == FileStem(FileName(archive).value)
  {
    match FileName(archive)
    case None => None
    case Some(name) => if name == "" then Some(name) else Some(FileStem(name))
  }

  /** What `sanitize` pushes for one component: a `Normal` name goes through
      `clean`, every other component is kept as it is. */
  function SanitizeComponent(clean: string -> string, c: Component): (r: Path)
    ensures !c.Normal? ==> r == [c]
    ensures c.Normal? ==> r == NameToPath(clean(c.name))
  {
    match c
    case Normal(s) => NameToPath(clean(s))
    case _ => [c]
  }

  /** `sanitize`: push the sanitized form of each component, in order, onto an
      empty path. */
  function Sanitize(clean: string -> string, p: Path): (r: Path)
    // a root survives, and nothing else makes the result absolute
    ensures IsAbsolute(r) <==> Root in p
    // each component contributes at most one, and a root discards what came before
    ensures |r| <= |p|
    // the result ends in a name iff the entry does and `clean` leaves a name there
    ensures EndsInName(r) <==> EndsInName(p) && clean(p[|p| - 1].name) !in {"", ".", ".."}
    decreases |p|
  {
    if |p| == 0 then []
    else Push(Sanitize(clean, p[..|p| - 1]), SanitizeComponent(clean, p[|p| - 1]))
  }

  /** The sanitized pieces joined end to end, with no root resetting them. */
  function Concat(clean: string -> string, p: Path): (r: Path)
    decreases |p|
  {
    if |p| == 0 then []
    else Join(Concat(clean, p[..|p| - 1]), SanitizeComponent(clean, p[|p| - 1]))
  }

  /** Only a root component sanitizes to an absolute piece. */
  lemma PieceAbsoluteOnlyForRoot(clean: string -> string, c: Component)
    ensures IsAbsolute(SanitizeComponent(clean, c)) <==> c == Root
  {
  }

  /** On a well-formed path no later push resets the result, so `sanitize`
      is the concatenation of the sanitized components. */
  lemma {:induction false} SanitizeIsConcat(clean: string -> string, p: Path)
    requires forall i :: 0 < i < |p| ==> p[i] != Root
    ensures Sanitize(clean, p) == Concat(clean, p)
    ensures IsAbsolute(Sanitize(clean, p)) <==> IsAbsolute(p)
    decreases |p|
  {
    if |p| > 0 {
      var q := p[..|p| - 1];
      SanitizeIsConcat(clean, q);
      PieceAbsoluteOnlyForRoot(clean, p[|p| - 1]);
      if |p| == 1 {
        assert q == [];
      } else {
        assert p[|p| - 1] != Root;
        assert |q| > 0 && q[0] == p[0];
        if IsAbsolute(q) {
          assert Concat(clean, p)[0] == Root;
        }
      }
    }
  }

  /** The component-wise reading of `sanitize`: as long as `clean` turns
      every name into a proper name, the result has the same number of
      components in the same order, each `Normal(s)` becoming
      `Normal(clean(s))` and every other component, `..` and the root
      included, copied unchanged. */
  lemma {:induction false} SanitizeIsComponentwise(clean: string -> string, p: Path)
    requires WellFormed(p)
    requires forall i :: 0 <= i < |p| && p[i].Normal? ==> ProperName(clean(p[i].name))
    ensures var r := Sanitize(clean, p);
      && |r| == |p|
      && forall i :: 0 <= i < |p| ==>
           r[i] == (if p[i].Normal? then Normal(clean(p[i].name)) else p[i])
  {
    SanitizeIsConcat(clean, p);
    ConcatIsComponentwise(clean, p);
  }

  lemma {:induction false} ConcatIsComponentwise(clean: string -> string, p: Path)
    requires forall i :: 0 <= i < |p| && p[i].Normal? ==> ProperName(clean(p[i].name))
    ensures var r := Concat(clean, p);
      && |r| == |p|
      && forall i :: 0 <= i < |p| ==>
           r[i] == (if p[i].Normal? then Normal(clean(p[i].name)) else p[i])
    decreases |p|
  {
    if |p| > 0 {
      var q := p[..|p| - 1];
      ConcatIsComponentwise(clean, q);
    }
  }

  /** A path whose names `clean` already leaves alone sanitizes to itself. */
  lemma SanitizeKeepsCleanPath(clean: string -> string, p: Path)
    requires WellFormed(p)
    requires forall i :: 0 <= i < |p| && p[i].Normal? ==> clean(p[i].name) == p[i].name
    ensures Sanitize(clean, p) == p
  {
    SanitizeIsComponentwise(clean, p);
  }

  /** Whatever `clean` does, a `..` in the entry path survives sanitizing. */
  lemma {:induction false} ParentSurvivesSanitize(clean: string -> string, p: Path, i: nat)
    requires WellFormed(p)
    requires i < |p| && p[i] == Parent
    ensures Parent in Sanitize(clean, p)
  {
    SanitizeIsConcat(clean, p);
    ParentInConcat(clean, p, i);
  }

  lemma {:induction false} ParentInConcat(clean: string -> string, p: Path, i: nat)
    requires i < |p| && p[i] == Parent
    ensures Parent in Concat(clean, p)
    decreases |p|
  {
    var q := p[..|p| - 1];
    if i < |p| - 1 {
      ParentInConcat(clean, q, i);
    } else {
      assert SanitizeComponent(clean, p[i]) == [Parent];
    }
  }

  /** With a `clean` that is idempotent on the names it produces, sanitizing
      twice is sanitizing once. */
  lemma SanitizeIdempotent(clean: string -> string, p: Path)
    requires WellFormed(p)
    requires forall i :: 0 <= i < |p| && p[i].Normal? ==>
      ProperName(clean(p[i].name)) && clean(clean(p[i].name)) == clean(p[i].name)
    ensures Sanitize(clean, Sanitize(clean, p)) == Sanitize(clean, p)
  {
    var r := Sanitize(clean, p);
    SanitizeIsComponentwise(clean, p);
    forall i | 0 <= i < |r|
      ensures 0 < i ==> r[i] != Root && r[i] != Cur
      ensures r[i].Normal? ==> ProperName(r[i].name) && ProperName(clean(r[i].name)) && clean(r[i].name) == r[i].name
    {
      if p[i].Normal? {
        assert r[i] == Normal(clean(p[i].name));
      } else {
        assert r[i] == p[i];
      }
    }
    assert WellFormed(r);
    SanitizeIsComponentwise(clean, r);
    var r2 := Sanitize(clean, r);
    assert |r2| == |r|;
    forall i | 0 <= i < |r|
      ensures r2[i] == r[i]
    {
    }
  }

  /** The path the entry is extracted under: the destination, then the
      archive's stem when extracting to a sub-directory. */
  function TargetBase(dest: Option<Path>, sub: bool, stem: Option<string>): Path
    requires sub ==> stem.Some?
  {
    var d := if dest.Some? then dest.value else [];
    if sub then Join(d, NameToPath(stem.value)) else d
  }

  /** The target path built in the extraction loop: push the destination (if
      any), then the archive's file stem (if `sub`), then the sanitized
      entry path. `file_stem().unwrap()` panics without a stem. */
  function TargetPath(dest: Option<Path>, sub: bool, stem: Option<string>, clean: string -> string, entry: Path): (r: Path)
    requires sub ==> stem.Some?
    // a root anywhere in the entry discards the destination and the stem
    ensures Root in entry ==> r == Sanitize(clean, entry)
    ensures IsAbsolute(r) <==> Root in entry || (dest.Some? && IsAbsolute(dest.value))
    // the target ends in a name exactly when the sanitized entry does
    ensures EndsInName(r) <==> EndsInName(Sanitize(clean, entry))
  {
    var path := [];
    var path := if dest.Some? then Push(path, dest.value) else path;
    var path := if sub then Push(path, NameToPath(stem.value)) else path;
    Push(path, Sanitize(clean, entry))
  }

  /** A relative entry lands under the destination and, with `sub`, under the
      archive's stem, in that order. An entry that sanitizes to the empty
      path leaves a trailing separator after them. */
  lemma {:induction false} TargetOfRelativeEntry(dest: Option<Path>, sub: bool, stem: Option<string>, clean: string -> string, entry: Path)
    requires sub ==> stem.Some?
    requires Root !in entry
    ensures Sanitize(clean, entry) != [] ==>
      TargetPath(dest, sub, stem, clean, entry) == TargetBase(dest, sub, stem) + Sanitize(clean, entry)
    ensures Sanitize(clean, entry) == [] ==>
      TargetPath(dest, sub, stem, clean, entry) ==
        (if TargetBase(dest, sub, stem) == [] then [] else TargetBase(dest, sub, stem) + [Cur])
    ensures dest.Some? ==> TargetPath(dest, sub, stem, clean, entry)[..|dest.value|] == dest.value
  {
    var z := Sanitize(clean, entry);
    var base := TargetBase(dest, sub, stem);
    var t := TargetPath(dest, sub, stem, clean, entry);
    TargetIsJoined(dest, sub, stem, clean, entry);
    JoinShape(base, z);
    if dest.Some? {
      BaseStartsWithDest(dest, sub, stem);
      assert t[..|dest.value|] == base[..|dest.value|];
    }
  }

  /** Joining keeps the base in front: the path joined follows it, or a
      trailing separator does when that path is empty. */
  lemma JoinShape(base: Path, z: Path)
    ensures z != [] ==> Join(base, z) == base + z
    ensures z == [] ==> Join(base, z) == if base == [] then [] else base + [Cur]
    ensures |base| <= |Join(base, z)| && Join(base, z)[..|base|] == base
  {
  }

  /** The destination comes first in the base of the target. */
  lemma BaseStartsWithDest(dest: Option<Path>, sub: bool, stem: Option<string>)
    requires (sub ==> stem.Some?) && dest.Some?
    ensures |dest.value| <= |TargetBase(dest, sub, stem)|
    ensures TargetBase(dest, sub, stem)[..|dest.value|] == dest.value
  {
    if sub {
      JoinShape(dest.value, NameToPath(stem.value));
    }
  }

  /** A relative entry's sanitized path is joined to the base. */
  lemma TargetIsJoined(dest: Option<Path>, sub: bool, stem: Option<string>, clean: string -> string, entry: Path)
    requires sub ==> stem.Some?
    requires Root !in entry
    ensures TargetPath(dest, sub, stem, clean, entry) == Join(TargetBase(dest, sub, stem), Sanitize(clean, entry))
  {
    assert !IsAbsolute(Sanitize(clean, entry));
    PushedBase(dest, sub, stem);
  }

  /** The pushes before the entry's build the base of the target. */
  lemma PushedBase(dest: Option<Path>, sub: bool, stem: Option<string>)
    requires sub ==> stem.Some?
    ensures var path := if dest.Some? then Push([], dest.value) else [];
      (if sub then Push(path, NameToPath(stem.value)) else path) == TargetBase(dest, sub, stem)
  {
    if dest.Some? && !IsAbsolute(dest.value) {
      assert [] + dest.value == dest.value;
    }
  }

  /** One step of a lookup that has reached `dir` (the directory checks are
      `Disk.Walk`'s): a root starts over, `.` stays in the directory reached,
      and `..` leaves the last directory entered (at the root it stays put;
      with nothing to leave it is kept, pointing above the starting
      directory). */
  function Enter(dir: Path, c: Component): Path {
    match c
    case Root => [Root]
    case Cur => dir
    case Parent =>
      if |dir| > 0 && dir[|dir| - 1].Normal? then dir[..|dir| - 1]
      else if dir == [Root] then dir
      else dir + [Parent]
    case Normal(_) => dir + [c]
  }

  /** A key that cannot shorten any further: no `.`, a root only in front,
      and `..` only in a leading run. */
  predicate Resolved(p: Path) {
    forall i :: 0 <= i < |p| ==>
      && p[i] != Cur
      && (p[i] == Root ==> i == 0)
      && (p[i] == Parent ==> i == 0 || p[i - 1] == Parent)
  }

  lemma EnterKeepsResolved(dir: Path, c: Component)
    requires Resolved(dir)
    ensures Resolved(Enter(dir, c))
    ensures IsAbsolute(Enter(dir, c)) <==> c == Root || IsAbsolute(dir)
  {
    if c == Parent && |dir| > 0 && dir[|dir| - 1].Normal? {
      assert forall i :: 0 <= i < |dir| - 1 ==> dir[..|dir| - 1][i] == dir[i];
    }
  }

  /** The lexical key of `p`, relative to the working directory: where a
      lookup of `p` lands when every directory on the way exists. */
  function Resolve(p: Path): (r: Path)
    ensures Resolved(r)
    ensures IsAbsolute(r) <==> Root in p
    decreases |p|
  {
    if |p| == 0 then []
    else
      var q := p[..|p| - 1];
      EnterKeepsResolved(Resolve(q), p[|p| - 1]);
      assert Root in p <==> Root in q || p[|p| - 1] == Root by {
        assert p == q + [p[|p| - 1]];
      }
      Enter(Resolve(q), p[|p| - 1])
  }

  /** A resolved path is its own key. */
  lemma {:induction false} ResolvedIsFixed(p: Path)
    requires Resolved(p)
    ensures Resolve(p) == p
    decreases |p|
  {
    if |p| > 0 {
      var q := p[..|p| - 1];
      var c := p[|p| - 1];
      assert Resolved(q) by {
        forall i | 0 <= i < |q|
          ensures q[i] != Cur && (q[i] == Root ==> i == 0) && (q[i] == Parent ==> i == 0 || q[i - 1] == Parent)
        {
          assert q[i] == p[i];
          if 0 < i {
            assert q[i - 1] == p[i - 1];
          }
        }
      }
      ResolvedIsFixed(q);
      assert p == q + [c];
      EnterAppends(q, c);
    }
  }

  /** Entering the last component of a resolved path appends it. */
  lemma EnterAppends(q: Path, c: Component)
    requires Resolved(q + [c])
    ensures Enter(q, c) == q + [c]
  {
    var p := q + [c];
    assert p[|q|] == c;
    if c == Root {
      assert |q| == 0;
    } else if c == Parent && |q| > 0 {
      assert q[|q| - 1] == p[|q| - 1] == Parent;
    }
  }

  /** Resolving twice is resolving once. */
  lemma ResolveIdempotent(p: Path)
    ensures Resolve(Resolve(p)) == Resolve(p)
  {
    ResolvedIsFixed(Resolve(p));
  }

  /** `Path::parent`: everything but the last component, except for the empty
      path and the bare root, which have no parent. */
  function ParentOf(p: Path): (r: Option<Path>)
    ensures r.None? <==> p == [] || p == [Root]
    ensures r.Some? ==> |r.value| + 1 == |p| && r.value == p[..|p| - 1]
  {
    if |p| == 0 || p == [Root] then None else Some(p[..|p| - 1])
  }
}

=== FILE: reader.dfy ===
/**
  `CloneableSeekableReader`: many cursors over one shared file.

  The shared file (the `Arc<Mutex<File>>`) is a byte sequence together with the
  operating system's own file position. Each clone is a `Cursor` holding its
  own logical position and its own cached file length. The lock-protected body
  of `read` is one atomic transition of a `Source`, the shared file plus the
  cursors of every live clone.
 */
module CloneableReader {
  import opened Base

  /** `std::io::SeekFrom`. */
  datatype SeekFrom = Start(offset: int) | End(delta: int) | Current(delta: int)

  /** One clone's private state: `pos` and `file_length`. */
  datatype Cursor = Cursor(pos: nat, fileLength: Option<nat>)

  /** The file behind the mutex: its contents and its OS-level position. */
  datatype SharedFile = SharedFile(data: seq<byte>, osPos: nat)

  /** The shared file and the cursors of all clones made from it. */
  datatype Source = Source(file: SharedFile, readers: seq<Cursor>)

  /** The `std::io::ErrorKind`s that can come out of this reader. `Os` stands
      for whatever the operating system reports from `seek` or `read`. */
  datatype ErrorKind = InvalidInput | Os

  datatype IoResult<+T> = Ok(value: T) | Err(kind: ErrorKind)

  /** What the operating system does with the seek+read pair inside `read`:
      both succeed, or one of them reports an error. */
  datatype Fault = NoFault | SeekFault | ReadFault

  /** The argument of `seek` is a well-typed Rust value. */
  predicate WellTyped(t: SeekFrom) {
    match t
    case Start(o) => IsU64(o)
    case End(d) => IsI64(d)
    case Current(d) => IsI64(d)
  }

  /** A clone's fields are `u64` values and its cache, once filled, holds the
      file's true length. */
  predicate CursorValid(c: Cursor, f: SharedFile) {
    && IsU64(c.pos)
    && (c.fileLength.Some? ==> c.fileLength.value == |f.data|)
  }

  predicate Valid(s: Source) {
    && IsU64(|s.file.data|)
    && IsU64(s.file.osPos)
    && forall i :: 0 <= i < |s.readers| ==> CursorValid(s.readers[i], s.file)
  }

  /** `CloneableSeekableReader::new`: one reader at position 0, nothing cached. */
  function New(f: SharedFile): (s: Source)
    ensures s.file == f
    ensures |s.readers| == 1
    ensures s.readers[0].pos == 0 && s.readers[0].fileLength.None?
    ensures IsU64(|f.data|) && IsU64(f.osPos) ==> Valid(s)
  {
    Source(f, [Cursor(0, None)])
  }

  /** `Clone::clone`: a new reader sharing the file, starting from a copy of
      reader `id`'s position and cached length. No existing reader changes. */
  function Clone(s: Source, id: nat): (r: Source)
    requires id < |s.readers|
    ensures r.file == s.file
    ensures |r.readers| == |s.readers| + 1
    ensures r.readers[..|s.readers|] == s.readers
    ensures r.readers[|s.readers|] == s.readers[id]
    ensures Valid(s) ==> Valid(r)
  {
    s.(readers := s.readers + [s.readers[id]])
  }

  /** Result of `ascertain_file_length`: the updated cursor, the length, and
      whether the shared file had to be locked and asked. */
  datatype LengthQuery = LengthQuery(cursor: Cursor, length: nat, queried: bool)

  /** `ascertain_file_length`: the cached length if there is one, otherwise
      ask the shared file once and cache the answer. */
  function AscertainFileLength(c: Cursor, f: SharedFile): (r: LengthQuery)
    ensures r.queried <==> c.fileLength.None?
    ensures r.cursor.pos == c.pos
    ensures r.cursor.fileLength == Some(r.length)
    ensures c.fileLength.Some? ==> r.length == c.fileLength.value
    ensures c.fileLength.None? ==> r.length == |f.data|
    ensures CursorValid(c, f) ==> CursorValid(r.cursor, f) && r.length == |f.data|
  {
    match c.fileLength
    case Some(len) => LengthQuery(c, len, false)
    case None =>
      var len := |f.data|;
      LengthQuery(c.(fileLength := Some(len)), len, true)
  }

  /** The length `seek(End(_))` works with: the cache, or the file's own. */
  function KnownLength(c: Cursor, f: SharedFile): nat {
    if c.fileLength.Some? then c.fileLength.value else |f.data|
  }

  /** `seek` does not panic: its argument is a Rust value and a relative seek
      does not leave the `u64` range (the code uses unchecked `+` and `-`). */
  predicate CanSeek(c: Cursor, t: SeekFrom) {
    && WellTyped(t)
    && (t.Current? ==> IsU64(c.pos + t.delta))
  }

  datatype SeekOutcome = SeekOutcome(cursor: Cursor, result: IoResult<nat>, queried: bool)

  /** `Seek::seek`. Pure cursor arithmetic on this clone; only an end-relative
      seek consults the (cached) file length, and only it can fail. */
  function Seek(c: Cursor, f: SharedFile, t: SeekFrom): (r: SeekOutcome)
    requires CanSeek(c, t)
    // a successful seek reports the position it moved to
    ensures r.result.Ok? ==> r.cursor.pos == r.result.value
    // a failed seek leaves the position alone and says InvalidInput
    ensures r.result.Err? ==> r.cursor.pos == c.pos && r.result.kind == InvalidInput
    ensures r.result.Err? <==> t.End? && AsU64(-t.delta) > KnownLength(c, f)
    ensures t.Start? ==> r.cursor == c.(pos := t.offset)
    ensures t.Current? ==> r.cursor == c.(pos := c.pos + t.delta)
    // an end-relative seek lands at length + delta, modulo 2^64
    ensures t.End? ==> r.cursor.fileLength == Some(KnownLength(c, f))
    ensures t.End? && r.result.Ok? && IsU64(KnownLength(c, f)) ==>
      r.cursor.pos == (KnownLength(c, f) + t.delta) % U64_LIMIT
    ensures t.End? && t.delta <= 0 && r.result.Ok? ==> r.cursor.pos == KnownLength(c, f) + t.delta
    // the file is asked for its length only when nothing is cached yet
    ensures r.queried <==> t.End? && c.fileLength.None?
    ensures c.fileLength.Some? ==> r.cursor.fileLength == c.fileLength
    ensures CursorValid(c, f) && IsU64(|f.data|) ==> CursorValid(r.cursor, f)
  {
    match t
    case Start(p) =>
      SeekOutcome(c.(pos := p), Ok(p), false)
    case End(d) =>
      var q := AscertainFileLength(c, f);
      var back := AsU64(-d);
      if back > q.length then
        SeekOutcome(q.cursor, Err(InvalidInput), q.queried)
      else
        var p := q.length - back;
        SeekOutcome(q.cursor.(pos := p), Ok(p), q.queried)
    case Current(d) =>
      var p := if d > 0 then c.pos + AsU64(d) else c.pos - AsU64(-d);
      SeekOutcome(c.(pos := p), Ok(p), false)
  }

  /** For any file shorter than 2^64 - delta, an end-relative seek with a
      positive delta is rejected: the code cannot seek past the end. */
  lemma EndSeekPastEndRejected(c: Cursor, f: SharedFile, d: int)
    requires 0 < d <= I64_MAX
    requires KnownLength(c, f) + d < U64_LIMIT
    ensures Seek(c, f, End(d)).result == Err(InvalidInput)
    ensures Seek(c, f, End(d)).cursor.pos == c.pos
  {
    assert AsU64(-d) == U64_LIMIT - d;
  }

  /** `seek(End(0))` lands exactly at the length. */
  lemma EndSeekZeroLandsAtLength(c: Cursor, f: SharedFile)
    ensures Seek(c, f, End(0)).result == Ok(KnownLength(c, f))
  {
  }

  /** How many bytes a successful `read` of a regular file transfers: as many
      as fit in the buffer, none at or past end of file. */
  function Transfer(len: nat, pos: nat, bufLen: nat): (n: nat)
    ensures n <= bufLen
    ensures n > 0 ==> pos + n <= len
    ensures n == 0 <==> bufLen == 0 || pos >= len
  {
    if pos < len then Min(bufLen, len - pos) else 0
  }

  datatype ReadOutcome = ReadOutcome(source: Source, result: IoResult<seq<byte>>)

  /** `Read::read` on reader `id`, the whole body under the lock: seek the
      shared file to this reader's position, read up to `bufLen` bytes, and
      on success advance this reader's position by the count read. */
  function Read(s: Source, id: nat, bufLen: nat, fault: Fault): (r: ReadOutcome)
    requires id < |s.readers|
    ensures r.source.file.data == s.file.data
    ensures |r.source.readers| == |s.readers|
    // sibling readers are never touched
    ensures forall j :: 0 <= j < |s.readers| && j != id ==> r.source.readers[j] == s.readers[j]
    ensures r.result.Ok? <==> fault == NoFault
    // success: the bytes at this reader's own position, and the cursor moves past them
    ensures r.result.Ok? ==>
      var c := s.readers[id];
      var bytes := r.result.value;
      && |bytes| == Transfer(|s.file.data|, c.pos, bufLen)
      && (|bytes| > 0 ==> c.pos + |bytes| <= |s.file.data| && bytes == s.file.data[c.pos..c.pos + |bytes|])
      && r.source.readers[id] == c.(pos := c.pos + |bytes|)
      && r.source.file.osPos == c.pos + |bytes|
    // failure: no reader moves
    ensures r.result.Err? ==> r.source.readers == s.readers && r.result.kind == Os
    // a failed read happens after the shared file was positioned for this reader
    ensures fault == ReadFault ==> r.source.file.osPos == s.readers[id].pos
    ensures Valid(s) ==> Valid(r.source)
  {
    var c := s.readers[id];
    var positioned := s.file.(osPos := c.pos);
    match fault
    case SeekFault =>
      ReadOutcome(s, Err(Os))
    case ReadFault =>
      ReadOutcome(s.(file := positioned), Err(Os))
    case NoFault =>
      var n := Transfer(|s.file.data|, c.pos, bufLen);
      var bytes := if n == 0 then [] else s.file.data[c.pos..c.pos + n];
      var moved := c.(pos := c.pos + n);
      ReadOutcome(Source(positioned.(osPos := c.pos + n), s.readers[id := moved]), Ok(bytes))
  }

  /** A fresh reader's first successful read returns the file's first
      bytes, whatever the OS position of the file was. */
  lemma FreshReaderReadsFromStart(f: SharedFile, bufLen: nat)
    ensures Read(New(f), 0, bufLen, NoFault).result == Ok(f.data[..Min(bufLen, |f.data|)])
  {
  }

  /** A clone reads exactly what its origin would read at that moment, and
      the clone's read leaves the origin's cursor where it was. */
  lemma CloneReadsLikeOrigin(s: Source, id: nat, bufLen: nat, fault: Fault)
    requires id < |s.readers|
    ensures var mine := Read(Clone(s, id), |s.readers|, bufLen, fault);
            && mine.result == Read(s, id, bufLen, fault).result
            && mine.source.readers[id] == s.readers[id]
  {
  }

  /** `seek` on reader `id` of a source: only that reader's cursor changes.
      The length query locks the shared file but leaves its OS position alone. */
  function SeekAt(s: Source, id: nat, t: SeekFrom): (r: Source)
    requires id < |s.readers| && CanSeek(s.readers[id], t)
    ensures r.file == s.file
    ensures |r.readers| == |s.readers|
    ensures forall j :: 0 <= j < |s.readers| && j != id ==> r.readers[j] == s.readers[j]
    ensures r.readers[id] == Seek(s.readers[id], s.file, t).cursor
    ensures Valid(s) ==> Valid(r)
  {
    s.(readers := s.readers[id := Seek(s.readers[id], s.file, t).cursor])
  }

  /** After `seek(Start(p))`, a successful read returns the bytes from `p`
      on, whatever the reader read before and wherever the OS position was. */
  lemma SeekThenRead(s: Source, id: nat, p: nat, bufLen: nat)
    requires id < |s.readers| && IsU64(p) && p <= |s.file.data|
    ensures Read(SeekAt(s, id, Start(p)), id, bufLen, NoFault).result
      == Ok(s.file.data[p..p + Min(bufLen, |s.file.data| - p)])
  {
    var t := SeekAt(s, id, Start(p));
    assert t.readers[id].pos == p;
    var n := Transfer(|s.file.data|, p, bufLen);
    assert n == Min(bufLen, |s.file.data| - p);
    if n == 0 {
      assert s.file.data[p..p + n] == [];
    }
  }

  /** One call of `read`, `seek` or `clone` in an interleaving of calls from
      several clones. A `clone` adds a reader at the next index. */
  datatype Call =
    | ReadCall(reader: nat, bufLen: nat, fault: Fault)
    | SeekCall(reader: nat, target: SeekFrom)
    | CloneCall(reader: nat)

  /** The call can be made: its reader exists and a seek does not panic. */
  predicate CallDefined(s: Source, c: Call) {
    && c.reader < |s.readers|
    && (c.SeekCall? ==> CanSeek(s.readers[c.reader], c.target))
  }

  /** One call, made atomically. */
  function Apply(s: Source, c: Call): (r: Source)
    requires CallDefined(s, c)
    ensures |s.readers| <= |r.readers|
    ensures r.file.data == s.file.data
    // only the caller's cursor can change; a clone changes none
    ensures forall j :: 0 <= j < |s.readers| && (j != c.reader || c.CloneCall?) ==> r.readers[j] == s.readers[j]
    ensures Valid(s) ==> Valid(r)
  {
    match c
    case ReadCall(id, bufLen, fault) => Read(s, id, bufLen, fault).source
    case SeekCall(id, t) => SeekAt(s, id, t)
    case CloneCall(id) => Clone(s, id)
  }

  /** Every call of the interleaving can be made in the state the calls
      before it leave. */
  predicate CallsDefined(s: Source, calls: seq<Call>)
    decreases |calls|
  {
    |calls| == 0 || (CallDefined(s, calls[0]) && CallsDefined(Apply(s, calls[0]), calls[1..]))
  }

  /** Performs the calls one after another, each atomically, as the mutex
      serialises them. */
  function RunCalls(s: Source, calls: seq<Call>): (r: Source)
    requires CallsDefined(s, calls)
    ensures |s.readers| <= |r.readers|
    ensures r.file.data == s.file.data
    ensures Valid(s) ==> Valid(r)
    decreases |calls|
  {
    if |calls| == 0 then s else RunCalls(Apply(s, calls[0]), calls[1..])
  }

  /** The bytes one call hands to reader `id`: those of its own successful
      reads, nothing otherwise. */
  function Got(s: Source, c: Call, id: nat): seq<byte>
    requires CallDefined(s, c)
  {
    if c.ReadCall? && c.reader == id then
      var step := Read(s, id, c.bufLen, c.fault);
      if step.result.Ok? then step.result.value else []
    else []
  }

  /** The bytes reader `id` obtained from its reads, in order, over an
      interleaving of calls. */
  function Received(s: Source, calls: seq<Call>, id: nat): seq<byte>
    requires CallsDefined(s, calls)
    decreases |calls|
  {
    if |calls| == 0 then []
    else Got(s, calls[0], id) + Received(Apply(s, calls[0]), calls[1..], id)
  }

  /** The calls made by reader `id` alone, in their original order. */
  function CallsOf(calls: seq<Call>, id: nat): (r: seq<Call>)
    ensures forall k :: 0 <= k < |r| ==> r[k].reader == id
  {
    if |calls| == 0 then []
    else (if calls[0].reader == id then [calls[0]] else []) + CallsOf(calls[1..], id)
  }

  /** One call other than a seek of its own moves reader `id` forward over
      exactly the bytes it hands to it. */
  lemma CallIsContiguous(s: Source, c: Call, id: nat)
    requires CallDefined(s, c) && id < |s.readers|
    requires c.SeekCall? ==> c.reader != id
    ensures var p0 := s.readers[id].pos;
            var pm := Apply(s, c).readers[id].pos;
            var got := Got(s, c, id);
            && pm == p0 + |got|
            && (|got| > 0 ==> pm <= |s.file.data| && got == s.file.data[p0..pm])
  {
  }

  /** A contiguous run of bytes followed by the contiguous run after it. */
  lemma Splice(data: seq<byte>, p0: nat, pm: nat, p1: nat, got: seq<byte>, rest: seq<byte>)
    requires pm == p0 + |got|
    requires |got| > 0 ==> pm <= |data| && got == data[p0..pm]
    requires pm <= p1
    requires pm <= |data| ==> p1 <= |data| && rest == data[pm..p1]
    requires pm > |data| ==> p1 == pm && rest == []
    ensures p0 <= p1
    ensures p0 <= |data| ==> p1 <= |data| && got + rest == data[p0..p1]
    ensures p0 > |data| ==> p1 == p0 && got + rest == []
  {
    if |got| > 0 {
      assert data[p0..p1] == data[p0..pm] + data[pm..p1];
    }
  }

  /** Reader `id` makes no seek among the calls. */
  predicate NoSeekBy(calls: seq<Call>, id: nat) {
    forall k :: 0 <= k < |calls| && calls[k].SeekCall? ==> calls[k].reader != id
  }

  lemma NoSeekByTail(calls: seq<Call>, id: nat)
    requires |calls| > 0 && NoSeekBy(calls, id)
    ensures NoSeekBy(calls[1..], id)
    ensures calls[0].SeekCall? ==> calls[0].reader != id
  {
    assert forall k :: 0 <= k < |calls| - 1 ==> calls[1..][k] == calls[k + 1];
  }

  /** Whatever the interleaving, as long as reader `id` does not seek itself,
      it receives exactly the contiguous bytes from its own starting position
      to its final position; its siblings may read and seek freely. */
  lemma {:induction false} ReadsAreContiguous(s: Source, calls: seq<Call>, id: nat)
    requires CallsDefined(s, calls)
    requires id < |s.readers|
    requires NoSeekBy(calls, id)
    ensures var p0 := s.readers[id].pos;
            var p1 := RunCalls(s, calls).readers[id].pos;
            && p0 <= p1
            && (p0 <= |s.file.data| ==> p1 <= |s.file.data| && Received(s, calls, id) == s.file.data[p0..p1])
            && (p0 > |s.file.data| ==> p1 == p0 && Received(s, calls, id) == [])
    decreases |calls|
  {
    if |calls| > 0 {
      var c := calls[0];
      var next := Apply(s, c);
      NoSeekByTail(calls, id);
      ReadsAreContiguous(next, calls[1..], id);
      CallIsContiguous(s, c, id);
      var data := s.file.data;
      var p0 := s.readers[id].pos;
      var pm := next.readers[id].pos;
      var p1 := RunCalls(s, calls).readers[id].pos;
      assert RunCalls(s, calls) == RunCalls(next, calls[1..]);
      assert Received(s, calls, id) == Got(s, c, id) + Received(next, calls[1..], id);
      Splice(data, p0, pm, p1, Got(s, c, id), Received(next, calls[1..], id));
    }
  }

  /** A seek reads nothing from the shared file but its length. */
  lemma SeekIgnoresOsPosition(c: Cursor, f: SharedFile, g: SharedFile, t: SeekFrom)
    requires CanSeek(c, t) && f.data == g.data
    ensures Seek(c, f, t) == Seek(c, g, t)
  {
  }

  /** Reader `id`'s final cursor and received bytes depend only on its own
      calls: sibling readers, their reads and seeks, and the shared OS
      position make no difference. Stated for two sources that agree on the
      file's contents and on reader `id`. */
  lemma {:induction false} ReadsIndependentOfSiblings(s: Source, t: Source, calls: seq<Call>, id: nat)
    requires CallsDefined(s, calls)
    requires id < |s.readers| && id < |t.readers|
    requires t.file.data == s.file.data
    requires t.readers[id] == s.readers[id]
    ensures CallsDefined(t, CallsOf(calls, id))
    ensures RunCalls(s, calls).readers[id] == RunCalls(t, CallsOf(calls, id)).readers[id]
    ensures Received(s, calls, id) == Received(t, CallsOf(calls, id), id)
    decreases |calls|
  {
    var mine := CallsOf(calls, id);
    if |calls| > 0 {
      var c := calls[0];
      var next := Apply(s, c);
      if c.reader == id {
        assert mine == [c] + CallsOf(calls[1..], id);
        assert mine[0] == c && mine[1..] == CallsOf(calls[1..], id);
        assert CallDefined(t, c);
        var tnext := Apply(t, c);
        match c
        case ReadCall(_, bufLen, fault) =>
          var step := Read(s, id, bufLen, fault);
          var tstep := Read(t, id, bufLen, fault);
          assert tstep.result == step.result;
          assert tnext.readers[id] == next.readers[id];
          ReadsIndependentOfSiblings(next, tnext, calls[1..], id);
          assert Got(t, c, id) == Got(s, c, id);
        case SeekCall(_, target) =>
          SeekIgnoresOsPosition(s.readers[id], s.file, t.file, target);
          assert tnext.readers[id] == next.readers[id];
          ReadsIndependentOfSiblings(next, tnext, calls[1..], id);
        case CloneCall(_) =>
          ReadsIndependentOfSiblings(next, tnext, calls[1..], id);
        assert RunCalls(t, mine) == RunCalls(tnext, mine[1..]);
        assert Received(t, mine, id) == Got(t, c, id) + Received(tnext, mine[1..], id);
      } else {
        assert mine == CallsOf(calls[1..], id);
        assert next.readers[id] == s.readers[id];
        ReadsIndependentOfSiblings(next, t, calls[1..], id);
      }
    }
  }

  /** Interleaving the calls of several clones gives each clone what it
      would get making its own calls alone on the same source. */
  lemma InterleavingIsInvisible(s: Source, calls: seq<Call>, id: nat)
    requires CallsDefined(s, calls)
    requires id < |s.readers|
    ensures CallsDefined(s, CallsOf(calls, id))
    ensures RunCalls(s, calls).readers[id] == RunCalls(s, CallsOf(calls, id)).readers[id]
    ensures Received(s, calls, id) == Received(s, CallsOf(calls, id), id)
  {
    ReadsIndependentOfSiblings(s, s, calls, id);
  }

  /** A sequence of seeks on one reader that never panics. */
  predicate SeeksDefined(c: Cursor, f: SharedFile, ts: seq<SeekFrom>)
    decreases |ts|
  {
    |ts| == 0 || (CanSeek(c, ts[0]) && SeeksDefined(Seek(c, f, ts[0]).cursor, f, ts[1..]))
  }

  /** Performs seeks on one reader; returns the final cursor and how many
      times the shared file was asked for its length. */
  function SeekAll(c: Cursor, f: SharedFile, ts: seq<SeekFrom>): (Cursor, nat)
    requires SeeksDefined(c, f, ts)
    decreases |ts|
  {
    if |ts| == 0 then (c, 0)
    else
      var o := Seek(c, f, ts[0]);
      var rest := SeekAll(o.cursor, f, ts[1..]);
      (rest.0, rest.1 + if o.queried then 1 else 0)
  }

  /** The length of the file is asked for at most once per reader: exactly
      once if nothing was cached and some seek is end-relative, else never.
      Once known, the length stays cached. */
  lemma {:induction false} LengthQueriedAtMostOnce(c: Cursor, f: SharedFile, ts: seq<SeekFrom>)
    requires SeeksDefined(c, f, ts)
    ensures SeekAll(c, f, ts).1 <= 1
    ensures SeekAll(c, f, ts).1 == 1 <==>
      c.fileLength.None? && exists k :: 0 <= k < |ts| && ts[k].End?
    ensures c.fileLength.Some? ==> SeekAll(c, f, ts).0.fileLength == c.fileLength
    decreases |ts|
  {
    if |ts| > 0 {
      var o := Seek(c, f, ts[0]);
      LengthQueriedAtMostOnce(o.cursor, f, ts[1..]);
      if ts[0].End? {
        assert o.cursor.fileLength.Some?;
      } else {
        assert o.cursor.fileLength == c.fileLength;
        if exists k :: 0 <= k < |ts| && ts[k].End? {
          var k :| 0 <= k < |ts| && ts[k].End?;
          assert ts[1..][k - 1].End?;
        }
      }
    }
  }
}
